=== FILE: README.md ===
# voice2report — a verified model of the capture, controller and export logic

voice2report is a single-page tool. It captures speech through the browser's
speech-recognition service and accumulates it into a transcript. It sends the
transcript to a generation service that returns a structured report. The report
can be exported as a PDF. This project models the three deterministic pieces of
that page in Dafny and proves properties about them:

- **`Speech`** (`speech.dfy`) is the capture adapter. It translates the
  recognizer's result events into final and partial callbacks. A small
  lifecycle over `(hasRecognition, isRecording)` guards the platform
  `start`/`stop` calls. Error codes other than `no-speech` are forwarded.
- **`App`** (`app.dfy`) is the page controller. An immutable record holds the
  mode, transcript, interim text, report, error and capture flag. Each handler
  is one pure step. The module also has the final-chunk merge, the displayed
  text, the generate-enable predicate and the `m:ss` timer label with its
  inverse.
- **`Pdf`** (`pdf.dfy`) is the exporter. It covers the vertical cursor and the
  page count over the sequence of text draws, the texts drawn and their order,
  and the file name (`\s+` runs become `_`, plus the timestamp).
- **`Session`** (`session.dfy`) wires the adapter's callbacks into the
  controller and the record button into the adapter. It proves that the two
  capture flags stay equal.
- **`Strings`** and **`Types`** hold the shared pieces: a fixed whitespace
  class, `trim`, ASCII upper-casing, decimal rendering, and the report
  datatypes.

Foreign calls become inputs:

- the speech platform's events are a datatype fed to the adapter;
- the generation service's result is an abstract `Outcome`;
- `window.confirm` is a boolean;
- jsPDF's `splitTextToSize` is an abstract `Wrap` giving a line count per text;
- the save timestamp is a natural number.

### Behaviour worth knowing

- **The `transcribing` mode is never entered.** `types.ts:2` declares six
  modes. No handler sets `transcribing` (`App.ReachableInv`).
- **The record button stays enabled during a generation.** It has no
  `disabled` attribute (`App.tsx:169-176`). Starting and then stopping capture
  moves `generating` to `recording` and then to `ready`. That enables the
  generate button again while the first request is still out
  (`App.CaptureReenablesGenerate`).
- **The generate handler checks only for a blank transcript.** It rejects a
  blank trimmed transcript with a message (`App.tsx:67-71`), and nothing else.
  Only the button's `disabled` attribute (`App.tsx:187`) stops a second request
  or a request during capture. That attribute reads the displayed text, while
  the handler reads the transcript alone. At the controller level, an enabled
  button can therefore meet a blank transcript when only interim text is shown
  (`App.EnabledButBlankTranscript`). The wired page never reaches that case:
  interim text is shown only while capture is on
  (`Session.EnabledGenerateStartsInSession`).
- **Pressing record in an unsupported browser erases the explanation.** The
  record handler clears the error before asking for a start (`App.tsx:60`).
  Without a recognizer the start does nothing. The page is left in the error
  mode with no message (`Session.UnsupportedPressErasesMessage`).
- **Dismissing the error keeps the mode.** The dismiss button clears the
  message and nothing else (`App.tsx:288`), so the mode stays `error`.
- **A text is drawn before the page check.** `addText` draws first and moves to
  a new page afterwards (`services/pdfService.ts:15-21`). A long paragraph can
  therefore run below the page bottom. The model records the position each
  text was drawn at and bounds where drawing starts, not where it ends.

The timer label has a reference inverse, `App.ParseTime`, which reads an
`m:ss` string back into seconds. It exists only to state the round trips
`App.FormatTimeRoundTrip` and `App.ParseTimeRoundTrip`.

The exporter also has a reference definition. `Pdf.Ops` flattens a report into
a straight-line list of steps: a text draw, a heading rule, or a skip.
`Pdf.Exec` runs such a list. `Pdf.LayoutIsProgram` proves that the export
equals its step list run on a fresh document. Together with the contracts of
`Pdf.AddText`, `Pdf.DrawRule` and `Pdf.Skip`, this fixes every cursor position
and page break, including those after a page was added.

## Model

| member | source | states |
|---|---|---|
| Strings.Trim | App.tsx:25-26 | the result has no whitespace at either end, is empty exactly when the input is blank, is no longer than the input, and leaves an already trimmed input unchanged |
| Strings.TrimIsInfix | App.tsx:25-26 | the trimmed text is a contiguous middle part of the input, and only whitespace was cut from either side |
| Strings.TrimIdempotent | App.tsx:25-26 | trimming twice is the same as trimming once |
| Strings.ToUpper | services/pdfService.ts:31 | upper-casing keeps the length and maps each character on its own: ASCII lower-case letters to their capitals, everything else unchanged |
| Strings.ToUpperIdempotent | services/pdfService.ts:31 | upper-casing leaves no ASCII lower-case letter, and doing it twice changes nothing |
| Strings.NatToDecimal | App.tsx:95-97 | rendering a number gives at least one digit, no leading zero and no whitespace |
| Strings.DecimalRoundTrip | App.tsx:95-97 | reading a rendered number back gives the number |
| Strings.CanonicalDecimalRoundTrip | App.tsx:95-97 | every canonical digit string is the rendering of its own value |
| Strings.DigitsDetermined | App.tsx:97 | two digit strings of equal length and equal value are the same string |
| Speech.ResultCallbacks | services/speechService.ts:26-41 | a result event yields one Final callback per final result from resultIndex on, in index order, followed by exactly one Partial callback carrying the non-final texts concatenated in index order |
| Speech.OnResult | services/speechService.ts:26-41 | the loop as written emits exactly the callbacks of the reference translation |
| Speech.EarlierResultsIgnored | services/speechService.ts:29-30 | results before resultIndex contribute nothing to the callbacks |
| Speech.ResultCallbacksKinds | services/speechService.ts:26-41 | a result event never reports an error or a state change, and only its last callback is partial |
| Speech.FinalChunksAppend | services/speechService.ts:30-36 | the final texts of a concatenation of result lists are the final texts of each part, in order |
| Speech.InterimTextAppend | services/speechService.ts:30-36 | the interim text of a concatenation of result lists is the interim text of each part, joined |
| Speech.Create | services/speechService.ts:8-19 | with the capability absent, exactly one error callback carrying the fixed message is made and no recognizer exists; otherwise nothing is reported and capture is off |
| Speech.Start | services/speechService.ts:57-65 | the platform start is called exactly when a recognizer exists and capture is off, and the adapter's state and callbacks are untouched |
| Speech.Stop | services/speechService.ts:67-71 | the platform stop is called exactly when a recognizer exists and capture is on |
| Speech.OnErrorEvent | services/speechService.ts:43-49 | every error code except `no-speech` is reported once as an error; `no-speech` reports nothing; in both cases the adapter's stop runs, so a platform stop is asked for exactly when capture is on; the adapter's state is unchanged |
| Speech.OnEvent | services/speechService.ts:21-54 | the start notification sets the flag and reports true; the end notification clears it and reports false; a result event reports exactly the result translation's callbacks and calls nothing; an error event is the error handler; results and errors leave the adapter's state alone; without a recognizer every event is ignored |
| Speech.ErrorForwarding | services/speechService.ts:43-49 | a failure is reported exactly when the code is not no-speech, at most once, and in both cases the recognizer is stopped when capture is on |
| Speech.ReactReportsState | services/speechService.ts:21-24 | a step either reports no state change and keeps the capture flag, or reports the flag it leaves |
| Speech.RecordingMatchesReportedState | services/speechService.ts:51-54 | after any sequence of calls and platform events, the adapter's capture flag equals the state it last reported |
| Speech.UnsupportedIsInert | services/speechService.ts:9-14 | without the capability, the constructor's message is the only callback ever, and no platform call is ever made |
| Speech.RecognitionIsFixed | services/speechService.ts:16 | whether a recognizer exists never changes after construction |
| App.MergeFinal | App.tsx:23-28 | the new transcript is the trimmed old transcript, then one space when that is not empty, then the trimmed chunk; its length is the sum of these parts |
| App.FoldFinalsJoins | App.tsx:23-29 | starting from an empty transcript, non-blank final chunks accumulate into their trimmed texts joined by single spaces, in arrival order |
| App.JoinTrimmed | App.tsx:23-28 | joining trimmed non-empty parts gives a trimmed text that is non-blank whenever there is a part |
| App.BlankChunkLeavesTrailingSpace | App.tsx:23-28 | a blank final chunk merged onto a non-blank transcript leaves a trailing space, so the transcript is no longer trimmed |
| App.DisplayedText | App.tsx:100 | the transcript when there is no interim text; the interim text when there is no transcript; otherwise both joined by one space; the transcript is always a prefix, and the length is the sum of the parts plus the separator |
| App.DisplayedTextBlank | App.tsx:100 | the displayed text is blank exactly when both the transcript and the interim text are blank |
| App.OnPartial | App.tsx:22 | the interim text is replaced, and nothing else changes |
| App.OnFinal | App.tsx:23-29 | the transcript becomes the merge of the old transcript and the chunk, the interim text is cleared, and nothing else changes |
| App.OnError | App.tsx:31-34 | the message is shown and the mode becomes error, and nothing else changes |
| App.OnStateChange | App.tsx:35-54 | the flag takes the reported value; turning off clears the interim text; turning on enters recording; turning off leaves recording for ready and keeps any other mode; an unchanged flag keeps the mode; transcript, report and error are untouched |
| App.ToggleRecording | App.tsx:56-64 | a stop is requested exactly when capture is on, and then nothing changes; otherwise the error is cleared and a start is requested |
| App.BeginGenerate | App.tsx:66-72 | with a blank transcript only the message is set and no request is made; otherwise the trimmed transcript is sent and the mode becomes generating |
| App.FinishGenerate | App.tsx:73-80 | success stores the report and returns to ready; failure shows the message (or the fallback when it is empty), enters error, and keeps the previous report |
| App.ClearAll | App.tsx:83-92 | a confirmed reset empties the transcript and the interim text, drops the report and the error, and returns to idle; an unconfirmed one changes nothing |
| App.EditTranscript | App.tsx:155 | an edit replaces the transcript while capture is off and is ignored while capture is on |
| App.DismissError | App.tsx:288 | closing the message removes it and changes nothing else |
| App.CanGenerate | App.tsx:187 | the generate button is enabled exactly when the transcript or the interim text is not blank, capture is off and no generation is in flight |
| App.EnabledGenerateStarts | App.tsx:187 | with no interim text, an enabled generate button always starts a generation, and that generation disables the button |
| App.EnabledButBlankTranscript | App.tsx:187 | with a blank transcript but non-blank interim text while capture is off, the button is enabled but the click only sets the message |
| App.PadStart | App.tsx:97 | padding to a width keeps the string as the suffix, fills only the front with the fill character, and yields the width, or the string itself when it is already as long |
| App.FormatTime | App.tsx:94-98 | the label is minutes, a colon and two seconds digits, and minutes times 60 plus seconds is the input |
| App.FormatTimeRoundTrip | App.tsx:94-98 | reading a label back gives the seconds it was made from |
| App.ParseTimeRoundTrip | App.tsx:94-98 | every string of the label's shape is the label of the seconds it reads as |
| App.ReachableInv | App.tsx:46-54 | from mount, the mode is never transcribing, and it is recording only while capture is on |
| App.ReportChangesOnlyOnSuccessOrReset | App.tsx:75-87 | the stored report changes only when a generation succeeds, which stores its report, or on a confirmed reset, which clears it |
| App.TranscriptChangesOnlyBy | App.tsx:23-28 | the transcript changes only by a final chunk, by an edit while capture is off, or by a confirmed reset |
| App.ErrorSurvivesStop | App.tsx:31-34 | an error reported during capture survives the stop notification that follows it |
| App.CaptureReenablesGenerate | App.tsx:56-64 | while generating, starting and stopping capture reaches ready, where the generate button is enabled again and a click would send a second request |
| Pdf.AddText | services/pdfService.ts:11-22 | the text is drawn at the cursor on the current page; afterwards the cursor is at most 270 and never above 20; a page is added exactly when the advance passes 270, and then the cursor is back at 20; with no page added, the cursor moved by lines times half the size plus 5 |
| Pdf.Skip | services/pdfService.ts:27 | an explicit skip moves the cursor down 5 without a page check and draws nothing |
| Pdf.DrawRule | services/pdfService.ts:32-33 | the heading rule is drawn 4 above the cursor on the current page; cursor, page count and texts are unchanged |
| Pdf.AddSection | services/pdfService.ts:30-46 | a section draws its upper-cased heading, its content when non-empty and a bulleted line per item, in that order; with no page added, the cursor moved by the texts' advances plus 5, plus another 5 when there are items |
| Pdf.Header | services/pdfService.ts:24-27 | the header draws the title and the date line; with no page added, the cursor ends at 20 plus both advances plus 5 |
| Pdf.AddSections | services/pdfService.ts:30-46 | the section loop draws each section's texts after the earlier ones, in section order; it never removes a page, keeps the cursor between 20 and 280, and keeps the placement invariant |
| Pdf.Layout | services/pdfService.ts:7-46 | the finished document keeps the invariant: every text is drawn between 20 and 280, every rule between 16 and 266, and the page count is one plus the overflowing draws |
| Pdf.ExecAppend | services/pdfService.ts:24-46 | running two step lists in turn is running their concatenation |
| Pdf.ItemsProgram | services/pdfService.ts:40-42 | the item loop is one bullet draw per item, in item order |
| Pdf.SectionProgram | services/pdfService.ts:31-45 | a section is the heading draw, the rule, the content draw when non-empty, the item draws and their skip when there are items, and the closing skip, in that order |
| Pdf.SectionsProgram | services/pdfService.ts:30-46 | the section loop is the sections' step lists run one after another |
| Pdf.LayoutIsProgram | services/pdfService.ts:24-46 | the whole export equals its flattened step list (title, date, skip, then every section's steps) run on a fresh document |
| Pdf.LayoutDrawsExpected | services/pdfService.ts:25-46 | the texts drawn are exactly the title, the date line, and per section the upper-cased heading, the non-empty content and one bullet line per item, in section and item order, with their sizes and weights |
| Pdf.EntryCount | services/pdfService.ts:25-46 | the number of texts drawn is two plus, per section, one for the heading, one for non-empty content and one per item |
| Pdf.LayoutPages | services/pdfService.ts:18-20 | the page count is one plus the number of draws that overflowed, and every mark lies on the page that the overflows before it had reached |
| Pdf.WellPlacedAll | services/pdfService.ts:15-21 | the recursive placement invariant, spelled out mark by mark: every mark lies in bounds and on the right page |
| Pdf.Sanitize | services/pdfService.ts:48 | the sanitized title contains no whitespace and is no longer than the title |
| Pdf.SanitizeIdentity | services/pdfService.ts:48 | a title without whitespace is kept as it is |
| Pdf.SanitizeIdempotent | services/pdfService.ts:48 | sanitizing twice is the same as sanitizing once |
| Pdf.SanitizeRun | services/pdfService.ts:48 | a whitespace run on its own becomes a single underscore |
| Pdf.SanitizeAppend | services/pdfService.ts:48 | sanitizing distributes over a concatenation that does not split a whitespace run |
| Pdf.RunCollapses | services/pdfService.ts:48 | a maximal whitespace run between two parts becomes one underscore between their sanitized forms |
| Pdf.FileName | services/pdfService.ts:48 | the file name contains no whitespace and ends in .pdf |
| Pdf.FileNameRoundTrip | services/pdfService.ts:48 | both parts can be read back from the file name: the sanitized title is everything before the last underscore (so exactly one `_` separates it from the timestamp), and the timestamp is the canonical decimal after it |
| Pdf.Download | services/pdfService.ts:4-48 | the export draws the expected texts, adds pages only on overflow, and saves under a name from which the sanitized title and the timestamp read back |
| Session.Mount | services/speechService.ts:11-14 | after mounting without the capability, the page is in error and shows the fixed message; with it, the page is in its initial state; capture is off either way |
| Session.StepKeepsSynced | App.tsx:35-38 | every plausible action keeps the controller's capture flag equal to the adapter's, and keeps the interim text empty while capture is off |
| Session.ReachableSynced | App.tsx:20-54 | from mount, as long as results arrive only during capture, the two capture flags agree and no interim text is shown while capture is off |
| Session.Press | App.tsx:56-64 | the record button takes the controller's toggle step and leaves the adapter's state alone; it asks the platform to start only when a recognizer exists and both flags show capture off, to stop only when both show it on, and for nothing without a recognizer |
| Session.PressDrivesPlatform | App.tsx:56-64 | with the flags in step, the record button asks the platform to stop exactly when the page shows capture on, and to start otherwise |
| Session.EnabledGenerateStartsInSession | App.tsx:187 | with the flags in step, an enabled generate button always sends the trimmed transcript |
| Session.UnsupportedNeverCaptures | services/speechService.ts:58 | without the capability, whatever happens, no platform call is issued and the page never shows capture on |
| Session.UnsupportedPressErasesMessage | App.tsx:56-64 | without the capability, mounting shows the fixed message, and one press of the record button removes it while the page stays in error and no platform call is issued |

## Left out

- services/geminiService.ts is not part of this model. It is a network call through a vendor SDK, with locale date formatting and an unchecked JSON cast. Its result is the abstract `Outcome` given to `App.FinishGenerate`, and its rejection message is an arbitrary string.
- constants/promptConfig.ts is not part of this model. It holds prompt strings and a schema literal, with no behaviour.
- The page's markup and styling are not modelled.
- The sample-transcript button (App.tsx:203-206) is not modelled. It replaces the transcript and sets the mode to ready unconditionally, even during capture or a generation. `App.TranscriptChangesOnlyBy` and `App.CaptureReenablesGenerate` cover the modelled events only.
- The one-second timer interval and the `timer` counter are not modelled because they are time driven. Only the pure label `App.FormatTime` is modelled, over natural numbers. The source's `seconds` is always a non-negative count.
- `window.confirm` is the `confirmed` boolean passed to `App.ClearAll`.
- React's effect scheduling and batching are not modelled. Each handler, including the effect that follows a change of the capture flag, is one atomic step.
- jsPDF's drawing primitives are not modelled. `splitTextToSize` is the abstract `Wrap`. The 170-unit wrap width, the font face, the 0.5 line width and the rule's horizontal extent (margin to margin + 40) are not modelled. `save` is reduced to the file name.
- Pdf.Layout: the model bounds where each text starts, not where its wrapped lines end. Lines that run off the page depend on the line count and are left to `Wrap`.
- Strings.IsWhitespace: JavaScript `trim` and `\s` also match Unicode spaces and line terminators beyond the six ASCII whitespace characters. The model uses the fixed ASCII class.
- Strings.ToUpper: `toUpperCase` is modelled for ASCII letters only. Other characters are kept, and full Unicode case mapping is not modelled.
- Speech.Start: a platform start that throws is caught and only logged (services/speechService.ts:59-63). It has no modelled effect, so it is not an input.
- Speech.Start: the platform's language, continuous and interim settings are constants and are not modelled. So is the console message on a failed start.
- The recognizer's alternatives are not modelled beyond the first transcript, which is the only one read.
- Session.ReachableSynced: the claim assumes that the platform delivers results only between its start and end notifications. That protocol belongs to the platform, and the code does not enforce it.
- The save timestamp is a natural number parameter, not the clock.

=== FILE: app.dfy ===
/**
 The application controller: the state the page keeps (mode, accumulated
 transcript, interim text, last report, error message, capture flag) and
 one pure step per event that mutates it. Each handler, together with the
 effect that reacts to a change of the capture flag, runs as one atomic
 step.
 */
module App {
  import opened Types
  import opened Strings

  datatype Model = Model(
    appState: AppState,
    transcript: string,
    interim: string,
    report: Option<StructuredReport>,
    error: Option<string>,
    isRecording: bool)

  /** The state at mount. */
  const Initial := Model(Idle, "", "", None, None, false)

  const EmptyTranscriptMessage := "Please provide a transcript first."

  /** Used when a failed generation carries no message. */
  const GenerationFallbackMessage := "Failed to generate report."

  // ---------------------------------------------------------------------
  // Transcript merging and display
  // ---------------------------------------------------------------------

  /** Appends a final chunk: both sides are trimmed and joined by one
      space unless the trimmed transcript is empty. */
  function MergeFinal(prev: string, text: string): (r: string)
    ensures |r| == |Trim(prev)| + |Trim(text)| + (if IsBlank(prev) then 0 else 1)
    ensures r[..|Trim(prev)|] == Trim(prev)
    ensures r[|r| - |Trim(text)|..] == Trim(text)
    ensures !IsBlank(prev) ==> r[|Trim(prev)|] == ' '
  {
    var base := Trim(prev);
    var chunk := Trim(text);
    if base != "" then base + " " + chunk else chunk
  }

  /** The space-joined concatenation of `parts`. */
  function Join(parts: seq<string>): string {
    if |parts| == 0 then ""
    else if |parts| == 1 then parts[0]
    else Join(parts[..|parts| - 1]) + " " + parts[|parts| - 1]
  }

  function TrimAll(chunks: seq<string>): (r: seq<string>)
    ensures |r| == |chunks|
    ensures forall k :: 0 <= k < |r| ==> r[k] == Trim(chunks[k])
  {
    seq(|chunks|, k requires 0 <= k < |chunks| => Trim(chunks[k]))
  }

  /** The transcript after the final chunks arrive in order. */
  function FoldFinals(start: string, chunks: seq<string>): string {
    if chunks == [] then start
    else MergeFinal(FoldFinals(start, chunks[..|chunks| - 1]), chunks[|chunks| - 1])
  }

  /** Joining trimmed non-empty parts gives a trimmed string that is
      non-blank whenever there is a part. */
  lemma {:induction false} JoinTrimmed(parts: seq<string>)
    requires forall k :: 0 <= k < |parts| ==> parts[k] != "" && IsTrimmed(parts[k])
    ensures IsTrimmed(Join(parts))
    ensures |parts| > 0 ==> !IsBlank(Join(parts))
  {
    if |parts| > 1 {
      var init := parts[..|parts| - 1];
      JoinTrimmed(init);
      var j := Join(init);
      assert j != [];
      assert (j + " " + parts[|parts| - 1])[0] == j[0];
    }
  }

  /** Starting from an empty transcript, final chunks that are not blank
      accumulate into their trimmed texts joined by single spaces, in
      arrival order. */
  lemma {:induction false} FoldFinalsJoins(chunks: seq<string>)
    requires forall k :: 0 <= k < |chunks| ==> !IsBlank(chunks[k])
    ensures FoldFinals("", chunks) == Join(TrimAll(chunks))
  {
    if chunks != [] {
      var n := |chunks|;
      var init, last := chunks[..n - 1], chunks[n - 1];
      var parts := TrimAll(chunks);
      assert parts[..n - 1] == TrimAll(init);
      FoldFinalsJoins(init);
      var j := Join(TrimAll(init));
      assert FoldFinals("", chunks) == MergeFinal(j, last);
      if n == 1 {
        MergeOntoBlank(j, last);
      } else {
        TrimmedParts(init);
        JoinTrimmed(TrimAll(init));
        MergeOntoTrimmed(j, last);
      }
    }
  }

  /** Trimming chunks that are not blank gives trimmed non-empty parts. */
  lemma TrimmedParts(chunks: seq<string>)
    requires forall k :: 0 <= k < |chunks| ==> !IsBlank(chunks[k])
    ensures forall k :: 0 <= k < |chunks| ==> TrimAll(chunks)[k] != "" && IsTrimmed(TrimAll(chunks)[k])
  {
  }

  lemma MergeOntoBlank(prev: string, text: string)
    requires IsBlank(prev)
    ensures MergeFinal(prev, text) == Trim(text)
  {
  }

  lemma MergeOntoTrimmed(prev: string, text: string)
    requires prev != "" && IsTrimmed(prev)
    ensures MergeFinal(prev, text) == prev + " " + Trim(text)
  {
  }

  /** A blank final chunk merged onto a non-blank transcript leaves a
      trailing space. */
  lemma BlankChunkLeavesTrailingSpace(prev: string, text: string)
    requires !IsBlank(prev) && IsBlank(text)
    ensures MergeFinal(prev, text) == Trim(prev) + " "
    ensures !IsTrimmed(MergeFinal(prev, text))
  {
  }

  /** The text area's content: the transcript, then the interim text,
      separated by one space when both are present. */
  function DisplayedText(transcript: string, interim: string): (r: string)
    ensures interim == "" ==> r == transcript
    ensures transcript == "" ==> r == interim
    ensures transcript != "" && interim != "" ==> r == transcript + " " + interim
    ensures |r| == |transcript| + |interim| + (if transcript != "" && interim != "" then 1 else 0)
    ensures r[..|transcript|] == transcript
  {
    transcript + (if interim != "" then (if transcript != "" then " " else "") + interim else "")
  }

  /** The displayed text is blank exactly when both parts are. */
  lemma DisplayedTextBlank(transcript: string, interim: string)
    ensures IsBlank(DisplayedText(transcript, interim)) <==> IsBlank(transcript) && IsBlank(interim)
  {
    var r := DisplayedText(transcript, interim);
    if IsBlank(r) {
      assert forall i :: 0 <= i < |transcript| ==> r[i] == transcript[i];
      assert forall i :: 0 <= i < |interim| ==> r[|r| - |interim| + i] == interim[i];
    }
  }

  // ---------------------------------------------------------------------
  // Capture callbacks
  // ---------------------------------------------------------------------

  /** `onPartial`: the interim text is replaced wholesale. */
  function OnPartial(m: Model, text: string): (r: Model)
    ensures r.interim == text
    ensures r.(interim := m.interim) == m
  {
    m.(interim := text)
  }

  /** `onFinal`: the chunk joins the transcript and the interim text is
      cleared. */
  function OnFinal(m: Model, text: string): (r: Model)
    ensures r.transcript == MergeFinal(m.transcript, text)
    ensures r.interim == ""
    ensures r.(transcript := m.transcript, interim := m.interim) == m
  {
    m.(transcript := MergeFinal(m.transcript, text), interim := "")
  }

  /** `onError`: the message is shown and the mode becomes `Error`. */
  function OnError(m: Model, message: string): (r: Model)
    ensures r.appState == Error && r.error == Some(message)
    ensures r.(appState := m.appState, error := m.error) == m
  {
    m.(error := Some(message), appState := Error)
  }

  /** `onStateChange` followed by the effect that watches the capture
      flag. The effect runs only when the flag actually changes: turning
      on enters `Recording`; turning off leaves `Recording` for `Ready` and
      keeps any other mode, so an `Error` reported just before the stop
      survives it. */
  function OnStateChange(m: Model, active: bool): (r: Model)
    ensures r.isRecording == active
    ensures r.interim == (if active then m.interim else "")
    ensures active && !m.isRecording ==> r.appState == Recording
    ensures !active && m.isRecording && m.appState == Recording ==> r.appState == Ready
    ensures !active && m.appState != Recording ==> r.appState == m.appState
    ensures active == m.isRecording ==> r.appState == m.appState
    ensures r.transcript == m.transcript && r.report == m.report && r.error == m.error
  {
    var flagged := m.(isRecording := active, interim := if active then m.interim else "");
    if active == m.isRecording then flagged
    else if active then flagged.(appState := Recording)
    else if m.appState == Recording then flagged.(appState := Ready)
    else flagged
  }

  // ---------------------------------------------------------------------
  // User actions
  // ---------------------------------------------------------------------

  /** What the controller asks of the capture adapter. */
  datatype Command = StartCapture | StopCapture

  datatype Toggled = Toggled(model: Model, command: Command)

  /** The record button: stops an active capture; otherwise clears the
      error and asks the adapter to start. The mode is left to the capture
      callbacks. */
  function ToggleRecording(m: Model): (r: Toggled)
    ensures r.command == StopCapture <==> m.isRecording
    ensures m.isRecording ==> r.model == m
    ensures !m.isRecording ==> r.model.error == None && r.model.(error := m.error) == m
  {
    if m.isRecording then Toggled(m, StopCapture)
    else Toggled(m.(error := None), StartCapture)
  }

  /** The state after a generate click, and the transcript snapshot sent
      to the generation service, if any. */
  datatype Begun = Begun(model: Model, request: Option<string>)

  /** The generate handler: a blank transcript only sets the message;
      otherwise the trimmed transcript is sent and the mode becomes
      `Generating`. The handler itself has no guard against a generation
      already in flight. */
  function BeginGenerate(m: Model): (r: Begun)
    ensures r.request.None? <==> IsBlank(m.transcript)
    ensures r.request.None? ==> r.model == m.(error := Some(EmptyTranscriptMessage))
    ensures r.request.Some? ==> r.request.value == Trim(m.transcript) && !IsBlank(r.request.value)
    ensures r.request.Some? ==> r.model == m.(appState := Generating)
  {
    var fullText := Trim(m.transcript);
    if fullText == "" then Begun(m.(error := Some(EmptyTranscriptMessage)), None)
    else Begun(m.(appState := Generating), Some(fullText))
  }

  /** How the generation request settled. */
  datatype Outcome = Generated(report: StructuredReport) | GenerationFailed(message: string)

  /** The end of the generate handler: success stores the report and
      returns to `Ready`; failure shows the message (or the fallback when
      it is empty), enters `Error` and keeps the stored report. */
  function FinishGenerate(m: Model, outcome: Outcome): (r: Model)
    ensures outcome.Generated? ==>
      (r.report == Some(outcome.report) && r.appState == Ready
       && r.(report := m.report, appState := m.appState) == m)
    ensures outcome.GenerationFailed? ==>
      (r.report == m.report && r.appState == Error
       && r.error.Some? && r.error.value != ""
       && (outcome.message != "" ==> r.error == Some(outcome.message))
       && (outcome.message == "" ==> r.error == Some(GenerationFallbackMessage))
       && r.(error := m.error, appState := m.appState) == m)
  {
    match outcome
    case Generated(report) => m.(report := Some(report), appState := Ready)
    case GenerationFailed(message) =>
      m.(error := Some(if message != "" then message else GenerationFallbackMessage), appState := Error)
  }

  /** The reset button: only a confirmed reset clears transcript, interim
      text, report and error and returns to `Idle`. The capture flag is
      not touched. */
  function ClearAll(m: Model, confirmed: bool): (r: Model)
    ensures !confirmed ==> r == m
    ensures confirmed ==>
      (r.transcript == "" && r.interim == "" && r.report == None
       && r.error == None && r.appState == Idle && r.isRecording == m.isRecording)
  {
    if confirmed then Model(Idle, "", "", None, None, m.isRecording) else m
  }

  /** Typing in the text area: replaces the transcript while not
      recording, ignored while recording. */
  function EditTranscript(m: Model, text: string): (r: Model)
    ensures m.isRecording ==> r == m
    ensures !m.isRecording ==> r.transcript == text && r.(transcript := m.transcript) == m
  {
    if m.isRecording then m else m.(transcript := text)
  }

  /** Closing the error toast removes the message; the mode stays. */
  function DismissError(m: Model): (r: Model)
    ensures r.error == None && r.(error := m.error) == m
  {
    m.(error := None)
  }

  /** The generate button is enabled: something is displayed, capture is
      off and no generation is shown as running. */
  function CanGenerate(m: Model): (r: bool)
    ensures r <==> (!IsBlank(m.transcript) || !IsBlank(m.interim)) && !m.isRecording && m.appState != Generating
  {
    DisplayedTextBlank(m.transcript, m.interim);
    !IsBlank(DisplayedText(m.transcript, m.interim)) && !m.isRecording && m.appState != Generating
  }

  /** With no interim text, an enabled generate button always starts a
      generation, and the started generation disables the button. */
  lemma EnabledGenerateStarts(m: Model)
    requires CanGenerate(m) && m.interim == ""
    ensures BeginGenerate(m).request == Some(Trim(m.transcript))
    ensures !CanGenerate(BeginGenerate(m).model)
  {
  }

  /** The button reads the displayed text while the handler reads the
      transcript: with a blank transcript and a non-blank interim text the
      button is enabled but the click only sets the message. */
  lemma EnabledButBlankTranscript(m: Model)
    requires IsBlank(m.transcript) && !IsBlank(m.interim) && !m.isRecording && m.appState != Generating
    ensures CanGenerate(m)
    ensures BeginGenerate(m).request.None?
  {
    DisplayedTextBlank(m.transcript, m.interim);
  }

  // ---------------------------------------------------------------------
  // Timer display
  // ---------------------------------------------------------------------

  /** String.prototype.padStart. */
  function PadStart(s: string, width: nat, fill: char): (r: string)
    ensures |r| == if |s| >= width then |s| else width
    ensures r[|r| - |s|..] == s
    ensures forall k :: 0 <= k < |r| - |s| ==> r[k] == fill
    decreases width - |s|
  {
    if |s| >= width then s else PadStart([fill] + s, width, fill)
  }

  /** The minutes part of a clock string. */
  function Minutes(t: string): string
    requires |t| >= 3
  {
    t[..|t| - 3]
  }

  /** The seconds part of a clock string. */
  function Seconds(t: string): string
    requires |t| >= 2
  {
    t[|t| - 2..]
  }

  /** `m:ss`: canonical decimal minutes, a colon, two digits below 60. */
  predicate IsClock(t: string) {
    |t| >= 4 && t[|t| - 3] == ':'
    && IsCanonicalDecimal(Minutes(t))
    && AllDigits(Seconds(t)) && DecimalValue(Seconds(t)) < 60
  }

  /** The elapsed-time label. */
  function FormatTime(seconds: nat): (r: string)
    ensures IsClock(r)
    ensures DecimalValue(Minutes(r)) * 60 + DecimalValue(Seconds(r)) == seconds
  {
    Clock(seconds / 60, seconds % 60)
  }

  /** `mins:ss` for whole minutes and seconds below 60, the seconds padded
      with a zero to two digits. */
  function Clock(mins: nat, secs: nat): (r: string)
    requires secs < 60
    ensures IsClock(r)
    ensures DecimalValue(Minutes(r)) == mins && DecimalValue(Seconds(r)) == secs
  {
    var m := NatToDecimal(mins);
    var s := PadStart(NatToDecimal(secs), 2, '0');
    TwoDigitSeconds(secs);
    DecimalRoundTrip(mins);
    ClockOf(m, s);
    m + ":" + s
  }

  /** Minutes, a colon and two seconds digits form a clock string whose
      parts are the ones given. */
  lemma ClockOf(mins: string, secs: string)
    requires IsCanonicalDecimal(mins)
    requires |secs| == 2 && AllDigits(secs) && DecimalValue(secs) < 60
    ensures Minutes(mins + ":" + secs) == mins && Seconds(mins + ":" + secs) == secs
    ensures IsClock(mins + ":" + secs)
  {
    var t := mins + ":" + secs;
    assert t[..|t| - 3] == mins;
    assert t[|t| - 2..] == secs;
  }

  /** The label of `n` seconds, `q` minutes and `s` seconds. */
  lemma FormatTimeOf(q: nat, s: nat, n: nat)
    requires s < 60 && n == q * 60 + s
    ensures FormatTime(n) == Clock(q, s)
  {
    DivMod60(q, s, n);
    assert FormatTime(n) == Clock(n / 60, n % 60);
  }

  lemma DivMod60(q: nat, s: nat, n: nat)
    requires s < 60 && n == q * 60 + s
    ensures n / 60 == q && n % 60 == s
  {
  }

  /** A number below 60 padded to two places reads back as itself. */
  lemma TwoDigitSeconds(n: nat)
    requires n < 60
    ensures |PadStart(NatToDecimal(n), 2, '0')| == 2
    ensures AllDigits(PadStart(NatToDecimal(n), 2, '0'))
    ensures DecimalValue(PadStart(NatToDecimal(n), 2, '0')) == n
  {
    var d := NatToDecimal(n);
    var p := PadStart(d, 2, '0');
    DecimalRoundTrip(n);
    if n < 10 {
      assert p == ['0'] + d;
      assert p[..1] == ['0'];
      assert DecimalValue(p[..1]) == 0 by {
        assert p[..1][..0] == [];
      }
    } else {
      assert |NatToDecimal(n / 10)| == 1;
      assert p == d;
    }
  }

  /** Reads a clock string back into seconds. */
  function ParseTime(t: string): (r: Option<nat>)
    ensures r.Some? <==> IsClock(t)
  {
    if IsClock(t) then Some(DecimalValue(Minutes(t)) * 60 + DecimalValue(Seconds(t))) else None
  }

  /** Formatting then reading gives back the seconds. */
  lemma FormatTimeRoundTrip(seconds: nat)
    ensures ParseTime(FormatTime(seconds)) == Some(seconds)
  {
    var t := FormatTime(seconds);
    assert IsClock(t);
    assert DecimalValue(Minutes(t)) * 60 + DecimalValue(Seconds(t)) == seconds;
  }

  /** Every clock string is the label of the seconds it reads as. */
  lemma ParseTimeRoundTrip(t: string)
    requires IsClock(t)
    ensures FormatTime(ParseTime(t).value) == t
  {
    var mins := Minutes(t);
    var secs := Seconds(t);
    var m := DecimalValue(mins);
    var s := DecimalValue(secs);
    var n := ParseTime(t).value;
    assert n == m * 60 + s;
    FormatTimeOf(m, s, n);
    CanonicalDecimalRoundTrip(mins);
    PaddedSecondsRoundTrip(secs);
    ClockSplit(t);
  }

  /** Two seconds digits are the padded rendering of their value. */
  lemma PaddedSecondsRoundTrip(secs: string)
    requires |secs| == 2 && AllDigits(secs) && DecimalValue(secs) < 60
    ensures PadStart(NatToDecimal(DecimalValue(secs)), 2, '0') == secs
  {
    var padded := PadStart(NatToDecimal(DecimalValue(secs)), 2, '0');
    TwoDigitSeconds(DecimalValue(secs));
    DigitsDetermined(secs, padded);
  }

  /** A clock string is its minutes, a colon and its seconds. */
  lemma ClockSplit(t: string)
    requires |t| >= 4 && t[|t| - 3] == ':'
    ensures t == Minutes(t) + ":" + Seconds(t)
  {
  }

  // ---------------------------------------------------------------------
  // Event sequences
  // ---------------------------------------------------------------------

  /** Everything that reaches the controller. */
  datatype Event =
    | PartialText(text: string)
    | FinalText(text: string)
    | CaptureError(message: string)
    | CaptureState(active: bool)
    | Toggle
    | Generate
    | Finish(outcome: Outcome)
    | Clear(confirmed: bool)
    | Edit(text: string)
    | Dismiss

  function Step(m: Model, e: Event): Model {
    match e
    case PartialText(t) => OnPartial(m, t)
    case FinalText(t) => OnFinal(m, t)
    case CaptureError(msg) => OnError(m, msg)
    case CaptureState(active) => OnStateChange(m, active)
    case Toggle => ToggleRecording(m).model
    case Generate => BeginGenerate(m).model
    case Finish(o) => FinishGenerate(m, o)
    case Clear(c) => ClearAll(m, c)
    case Edit(t) => EditTranscript(m, t)
    case Dismiss => DismissError(m)
  }

  function Run(m: Model, events: seq<Event>): Model {
    if events == [] then m else Step(Run(m, events[..|events| - 1]), events[|events| - 1])
  }

  /** What every reachable state satisfies: `Transcribing` is never
      entered and `Recording` is shown only while capture is on. */
  predicate Inv(m: Model) {
    m.appState != Transcribing && (m.appState == Recording ==> m.isRecording)
  }

  lemma StepPreservesInv(m: Model, e: Event)
    requires Inv(m)
    ensures Inv(Step(m, e))
  {
  }

  /** Every state reachable from mount satisfies the invariant. */
  lemma {:induction false} ReachableInv(events: seq<Event>)
    ensures Inv(Run(Initial, events))
  {
    if events != [] {
      ReachableInv(events[..|events| - 1]);
      StepPreservesInv(Run(Initial, events[..|events| - 1]), events[|events| - 1]);
    }
  }

  /** The stored report changes only by a successful generation, which
      stores its report, or by a confirmed reset, which clears it. */
  lemma ReportChangesOnlyOnSuccessOrReset(m: Model, e: Event)
    ensures Step(m, e).report != m.report ==>
      (e.Finish? && e.outcome.Generated? && Step(m, e).report == Some(e.outcome.report))
      || (e == Clear(true) && Step(m, e).report == None)
  {
  }

  /** Among the modelled events, the transcript changes only by a final
      chunk, an edit while not recording, or a confirmed reset; interim
      text never reaches it. */
  lemma TranscriptChangesOnlyBy(m: Model, e: Event)
    ensures Step(m, e).transcript != m.transcript ==>
      e.FinalText? || (e.Edit? && !m.isRecording) || e == Clear(true)
  {
  }

  /** A capture error reported while recording survives the stop that
      follows it. */
  lemma ErrorSurvivesStop(m: Model, message: string)
    requires m.isRecording
    ensures Run(m, [CaptureError(message), CaptureState(false)]).appState == Error
    ensures Run(m, [CaptureError(message), CaptureState(false)]).error == Some(message)
  {
    assert [CaptureError(message), CaptureState(false)][..1] == [CaptureError(message)];
  }

  /** The record button is not blocked while a generation runs: starting
      and stopping capture turns `Generating` into `Ready`, which enables
      the generate button again while the first request is still out. */
  lemma CaptureReenablesGenerate(m: Model)
    requires m.appState == Generating && !m.isRecording && !IsBlank(m.transcript)
    ensures !CanGenerate(m)
    ensures var later := Step(Step(Step(Step(m, Toggle), CaptureState(true)), Toggle), CaptureState(false));
      later.appState == Ready && CanGenerate(later) && BeginGenerate(later).request.Some?
  {
    var m1 := Step(m, Toggle);
    var m2 := Step(m1, CaptureState(true));
    assert m2.appState == Recording;
    var m3 := Step(m2, Toggle);
    assert m3 == m2;
    var m4 := Step(m3, CaptureState(false));
    assert m4.appState == Ready && m4.interim == "" && m4.transcript == m.transcript;
  }
}

=== FILE: pdf.dfy ===
/**
 The report exporter: the vertical cursor and page count of the document
 built by `downloadAsPDF`, the order and styling of the texts it draws, and
 the file name it saves under.

 The text-wrapping primitive is abstract: a `Wrap` says how many lines an
 entry takes. Drawing is recorded as a log of marks, each with the page and
 the vertical position it was drawn at.
 */
module Pdf {
  import opened Types
  import opened Strings

  /** The left margin, and the cursor's position at the top of a page. */
  const Top: real := 20.0
  /** A text that moves the cursor past this line starts a new page. */
  const Bottom: real := 270.0
  /** The space after every text and every explicit skip. */
  const Gap: real := 5.0
  /** How far above the cursor a heading rule is drawn. */
  const RuleRise: real := 4.0
  /** The lowest position any text can be drawn at: a text ends at most
      at `Bottom`, and at most two skips follow before the next text. */
  const Lowest: real := Bottom + 2.0 * Gap

  const TitleSize: nat := 22
  const DateSize: nat := 10
  const HeadingSize: nat := 12
  const ContentSize: nat := 11
  const ItemSize: nat := 10

  datatype Style = Normal | Bold

  /** A text as requested: its string, font size and weight. */
  datatype Entry = Entry(text: string, size: nat, style: Style)

  /** How many lines the wrapping primitive splits an entry into. */
  type Wrap = Entry -> nat

  /** What was drawn, on which page and at which vertical position. */
  datatype Mark =
    | Text(entry: Entry, lines: nat, page: nat, y: real)
    | Rule(page: nat, y: real)

  /** The document under construction. */
  datatype Doc = Doc(cursor: real, pages: nat, marks: seq<Mark>)

  /** A fresh document: one page, the cursor at the top. */
  const Fresh: Doc := Doc(Top, 1, [])

  // ---------------------------------------------------------------------
  // Cursor arithmetic

  /** The cursor movement of a text of `lines` lines in font `size`: half
      the size per line, plus the gap. */
  function Advance(lines: nat, size: nat): (a: real)
    ensures a >= Gap
  {
    var h: nat := lines * size;
    h as real * 0.5 + Gap
  }

  /** Drawing this mark pushed the cursor past the bottom line. */
  predicate Overflowed(m: Mark) {
    m.Text? && m.y + Advance(m.lines, m.entry.size) > Bottom
  }

  /** The number of marks in `marks` that started a new page. */
  function OverflowCount(marks: seq<Mark>): (n: nat)
    ensures n <= |marks|
  {
    if marks == [] then 0
    else OverflowCount(marks[..|marks| - 1]) + (if Overflowed(marks[|marks| - 1]) then 1 else 0)
  }

  /** The texts drawn, in drawing order. */
  function TextsOf(marks: seq<Mark>): seq<Entry> {
    if marks == [] then []
    else
      var last := marks[|marks| - 1];
      TextsOf(marks[..|marks| - 1]) + (if last.Text? then [last.entry] else [])
  }

  /** The total advance of a list of entries. */
  function Height(entries: seq<Entry>, wrap: Wrap): (h: real)
    ensures h >= 0.0
  {
    if entries == [] then 0.0
    else Advance(wrap(entries[0]), entries[0].size) + Height(entries[1..], wrap)
  }

  // ---------------------------------------------------------------------
  // The document invariant

  /** Texts are drawn between the top and the lowest position, rules four
      units above a cursor that a text has just left on the page. */
  predicate InBounds(m: Mark) {
    match m
    case Text(_, _, _, y) => Top <= y <= Lowest
    case Rule(_, y) => Top - RuleRise <= y <= Bottom - RuleRise
  }

  /** Every mark is within bounds and sits on the page that the overflows
      before it had reached. */
  predicate WellPlaced(marks: seq<Mark>) {
    marks == [] ||
    var k := |marks| - 1;
    && WellPlaced(marks[..k])
    && InBounds(marks[k])
    && marks[k].page == 1 + OverflowCount(marks[..k])
  }

  /** The cursor is never above the top, the page count is one plus the
      overflows, and the marks are well placed. */
  predicate Good(d: Doc) {
    && Top <= d.cursor
    && d.pages == 1 + OverflowCount(d.marks)
    && WellPlaced(d.marks)
  }

  /** Appending a mark grows the overflow count by one exactly when the
      mark overflowed, and keeps the marks well placed exactly when the
      mark is in bounds and on the page the earlier overflows reached. */
  lemma PlacedAppend(marks: seq<Mark>, m: Mark)
    ensures OverflowCount(marks + [m]) == OverflowCount(marks) + (if Overflowed(m) then 1 else 0)
    ensures WellPlaced(marks + [m])
      <==> WellPlaced(marks) && InBounds(m) && m.page == 1 + OverflowCount(marks)
  {
    assert (marks + [m])[..|marks|] == marks;
  }

  /** Well placed, spelled out mark by mark. */
  lemma {:induction false} WellPlacedAll(marks: seq<Mark>)
    requires WellPlaced(marks)
    ensures forall k :: 0 <= k < |marks| ==>
      InBounds(marks[k]) && marks[k].page == 1 + OverflowCount(marks[..k])
  {
    if marks != [] {
      var n := |marks| - 1;
      var p := marks[..n];
      WellPlacedAll(p);
      forall k | 0 <= k < n
        ensures InBounds(marks[k]) && marks[k].page == 1 + OverflowCount(marks[..k])
      {
        assert marks[k] == p[k];
        assert marks[..k] == p[..k];
      }
    }
  }

  lemma TextsOfAppend(marks: seq<Mark>, m: Mark)
    ensures TextsOf(marks + [m]) == TextsOf(marks) + (if m.Text? then [m.entry] else [])
  {
    assert (marks + [m])[..|marks|] == marks;
  }

  lemma ConcatAssoc<T>(a: seq<T>, b: seq<T>, c: seq<T>)
    ensures a + b + c == a + (b + c)
  {
  }

  lemma {:induction false} HeightAppend(a: seq<Entry>, b: seq<Entry>, wrap: Wrap)
    ensures Height(a + b, wrap) == Height(a, wrap) + Height(b, wrap)
  {
    if a == [] {
      assert a + b == b;
    } else {
      assert (a + b)[1..] == a[1..] + b;
      HeightAppend(a[1..], b, wrap);
    }
  }

  lemma HeightSingle(e: Entry, wrap: Wrap)
    ensures Height([e], wrap) == Advance(wrap(e), e.size)
  {
    assert [e][1..] == [];
  }

  // ---------------------------------------------------------------------
  // Drawing steps

  /** Draws an entry at the cursor on the current page, moves the cursor
      by its advance and, when that passes the bottom line, starts a new
      page with the cursor back at the top. */
  function AddText(d: Doc, e: Entry, wrap: Wrap): (r: Doc)
    ensures r.marks == d.marks + [Text(e, wrap(e), d.pages, d.cursor)]
    ensures TextsOf(r.marks) == TextsOf(d.marks) + [e]
    ensures r.cursor <= Bottom
    ensures d.cursor >= Top ==> r.cursor >= Top
    ensures r.pages >= d.pages
    ensures r.pages == d.pages <==> d.cursor + Advance(wrap(e), e.size) <= Bottom
    ensures r.pages == d.pages ==> r.cursor == d.cursor + Advance(wrap(e), e.size)
    ensures d.cursor + Advance(wrap(e), e.size) > Bottom ==> r.pages == d.pages + 1 && r.cursor == Top
    ensures Good(d) && d.cursor <= Lowest ==> Good(r)
  {
    var lines := wrap(e);
    var m := Text(e, lines, d.pages, d.cursor);
    var y := d.cursor + Advance(lines, e.size);
    TextsOfAppend(d.marks, m);
    PlacedAppend(d.marks, m);
    if y > Bottom then Doc(Top, d.pages + 1, d.marks + [m]) else Doc(y, d.pages, d.marks + [m])
  }

  /** An explicit vertical skip; it is never checked against the bottom. */
  function Skip(d: Doc): (r: Doc)
    ensures r.marks == d.marks && r.pages == d.pages
    ensures r.cursor == d.cursor + Gap
    ensures Good(d) ==> Good(r)
  {
    d.(cursor := d.cursor + Gap)
  }

  /** The rule under a heading, four units above the cursor. */
  function DrawRule(d: Doc): (r: Doc)
    ensures r.cursor == d.cursor && r.pages == d.pages
    ensures r.marks == d.marks + [Rule(d.pages, d.cursor - RuleRise)]
    ensures TextsOf(r.marks) == TextsOf(d.marks)
    ensures Good(d) && d.cursor <= Bottom ==> Good(r)
  {
    var m := Rule(d.pages, d.cursor - RuleRise);
    TextsOfAppend(d.marks, m);
    PlacedAppend(d.marks, m);
    d.(marks := d.marks + [m])
  }

  // ---------------------------------------------------------------------
  // What is drawn for a report

  /** A list item as drawn: a bullet and a space before the item. */
  function Bullet(item: string): Entry {
    Entry("\U{2022} " + item, ItemSize, Normal)
  }

  function BulletEntries(items: seq<string>): (r: seq<Entry>)
    ensures |r| == |items|
    ensures forall i :: 0 <= i < |items| ==> r[i] == Bullet(items[i])
  {
    if items == [] then [] else [Bullet(items[0])] + BulletEntries(items[1..])
  }

  function HeadingEntry(s: ReportSection): Entry {
    Entry(ToUpper(s.title), HeadingSize, Bold)
  }

  /** The content text, drawn only when the content is not empty. */
  function ContentEntries(s: ReportSection): seq<Entry> {
    if s.content != "" then [Entry(s.content, ContentSize, Normal)] else []
  }

  /** The texts of one section: the upper-cased heading, the content when
      it is not empty, then the items. */
  function SectionEntries(s: ReportSection): seq<Entry> {
    [HeadingEntry(s)] + ContentEntries(s) + BulletEntries(ItemsOf(s))
  }

  function SectionsEntries(sections: seq<ReportSection>): seq<Entry> {
    if sections == [] then [] else SectionEntries(sections[0]) + SectionsEntries(sections[1..])
  }

  function HeaderEntries(report: StructuredReport): seq<Entry> {
    [Entry(report.title, TitleSize, Bold), Entry("Date: " + report.date, DateSize, Normal)]
  }

  /** Every text the export draws, in order. */
  function ExpectedEntries(report: StructuredReport): seq<Entry> {
    HeaderEntries(report) + SectionsEntries(report.sections)
  }

  /** The number of texts a section draws. */
  function SectionCalls(s: ReportSection): nat {
    1 + (if s.content != "" then 1 else 0) + |ItemsOf(s)|
  }

  function SectionsCalls(sections: seq<ReportSection>): nat {
    if sections == [] then 0 else SectionCalls(sections[0]) + SectionsCalls(sections[1..])
  }

  // ---------------------------------------------------------------------
  // The layout

  function AddItems(d: Doc, items: seq<string>, wrap: Wrap): (r: Doc)
    decreases |items|
    ensures TextsOf(r.marks) == TextsOf(d.marks) + BulletEntries(items)
    ensures r.pages >= d.pages
    ensures items == [] ==> r == d
    ensures items != [] ==> r.cursor <= Bottom
    ensures d.cursor >= Top ==> r.cursor >= Top
    ensures Good(d) && d.cursor <= Lowest ==> Good(r)
    ensures r.pages == d.pages ==> r.cursor == d.cursor + Height(BulletEntries(items), wrap)
  {
    if items == [] then d
    else
      var d' := AddText(d, Bullet(items[0]), wrap);
      ConcatAssoc(TextsOf(d.marks), [Bullet(items[0])], BulletEntries(items[1..]));
      AddItems(d', items[1..], wrap)
  }

  /** The heading of a section and the rule under it. */
  function OpenSection(d: Doc, s: ReportSection, wrap: Wrap): (r: Doc)
    ensures TextsOf(r.marks) == TextsOf(d.marks) + [HeadingEntry(s)]
    ensures r.pages >= d.pages
    ensures r.cursor <= Bottom
    ensures d.cursor >= Top ==> r.cursor >= Top
    ensures Good(d) && d.cursor <= Lowest ==> Good(r)
    ensures r.pages == d.pages ==> r.cursor == d.cursor + Height([HeadingEntry(s)], wrap)
  {
    HeightSingle(HeadingEntry(s), wrap);
    DrawRule(AddText(d, HeadingEntry(s), wrap))
  }

  /** The content of a section, when it is not empty. */
  function SectionContent(d: Doc, s: ReportSection, wrap: Wrap): (r: Doc)
    ensures TextsOf(r.marks) == TextsOf(d.marks) + ContentEntries(s)
    ensures r.pages >= d.pages
    ensures d.cursor <= Bottom ==> r.cursor <= Bottom
    ensures d.cursor >= Top ==> r.cursor >= Top
    ensures Good(d) && d.cursor <= Lowest ==> Good(r)
    ensures r.pages == d.pages ==> r.cursor == d.cursor + Height(ContentEntries(s), wrap)
  {
    if s.content != "" then
      var e := Entry(s.content, ContentSize, Normal);
      HeightSingle(e, wrap);
      AddText(d, e, wrap)
    else
      d
  }

  /** The items of a section and the skip after them, when there are any. */
  function SectionItems(d: Doc, s: ReportSection, wrap: Wrap): (r: Doc)
    ensures TextsOf(r.marks) == TextsOf(d.marks) + BulletEntries(ItemsOf(s))
    ensures r.pages >= d.pages
    ensures d.cursor <= Bottom ==> r.cursor <= Bottom + Gap
    ensures d.cursor >= Top ==> r.cursor >= Top
    ensures Good(d) && d.cursor <= Lowest ==> Good(r)
    ensures r.pages == d.pages ==>
      r.cursor == d.cursor + Height(BulletEntries(ItemsOf(s)), wrap) + (if HasItems(s) then Gap else 0.0)
  {
    if HasItems(s) then Skip(AddItems(d, s.items.value, wrap)) else d
  }

  /** One section: the heading and its rule, the content when non-empty,
      the items followed by a skip when there are any, and a final skip. */
  function AddSection(d: Doc, s: ReportSection, wrap: Wrap): (r: Doc)
    ensures TextsOf(r.marks) == TextsOf(d.marks) + SectionEntries(s)
    ensures r.pages >= d.pages
    ensures d.cursor >= Top ==> r.cursor >= Top
    ensures r.cursor <= Lowest
    ensures Good(d) && d.cursor <= Lowest ==> Good(r)
    ensures r.pages == d.pages ==>
      r.cursor == d.cursor + Height(SectionEntries(s), wrap) + Gap + (if HasItems(s) then Gap else 0.0)
  {
    var d1 := OpenSection(d, s, wrap);
    var d2 := SectionContent(d1, s, wrap);
    var d3 := SectionItems(d2, s, wrap);
    HeightAppend([HeadingEntry(s)] + ContentEntries(s), BulletEntries(ItemsOf(s)), wrap);
    HeightAppend([HeadingEntry(s)], ContentEntries(s), wrap);
    ConcatAssoc(TextsOf(d.marks) + [HeadingEntry(s)], ContentEntries(s), BulletEntries(ItemsOf(s)));
    ConcatAssoc(TextsOf(d.marks), [HeadingEntry(s)], ContentEntries(s) + BulletEntries(ItemsOf(s)));
    ConcatAssoc([HeadingEntry(s)], ContentEntries(s), BulletEntries(ItemsOf(s)));
    Skip(d3)
  }

  function AddSections(d: Doc, sections: seq<ReportSection>, wrap: Wrap): (r: Doc)
    ensures TextsOf(r.marks) == TextsOf(d.marks) + SectionsEntries(sections)
    ensures r.pages >= d.pages
    ensures d.cursor >= Top ==> r.cursor >= Top
    ensures d.cursor <= Lowest ==> r.cursor <= Lowest
    ensures Good(d) && d.cursor <= Lowest ==> Good(r)
    decreases |sections|
  {
    if sections == [] then d
    else
      var d' := AddSection(d, sections[0], wrap);
      ConcatAssoc(TextsOf(d.marks), SectionEntries(sections[0]), SectionsEntries(sections[1..]));
      AddSections(d', sections[1..], wrap)
  }

  /** The title, the date line and a skip. */
  function Header(report: StructuredReport, wrap: Wrap): (r: Doc)
    ensures TextsOf(r.marks) == HeaderEntries(report)
    ensures Good(r)
    ensures Top <= r.cursor <= Bottom + Gap
    ensures r.pages == 1 ==> r.cursor == Top + Height(HeaderEntries(report), wrap) + Gap
  {
    var title := Entry(report.title, TitleSize, Bold);
    var date := Entry("Date: " + report.date, DateSize, Normal);
    assert Good(Fresh);
    var d := AddText(AddText(Fresh, title, wrap), date, wrap);
    assert HeaderEntries(report) == [title] + [date];
    HeightAppend([title], [date], wrap);
    HeightSingle(title, wrap);
    HeightSingle(date, wrap);
    Skip(d)
  }

  /** The whole document for a report. */
  function Layout(report: StructuredReport, wrap: Wrap): (r: Doc)
    ensures Good(r)
    ensures r.cursor <= Lowest
  {
    AddSections(Header(report, wrap), report.sections, wrap)
  }

  // ---------------------------------------------------------------------
  // The layout as a straight-line program

  /** One drawing step: a text, a heading rule, or an explicit skip. */
  datatype Op = Put(entry: Entry) | Line | Space

  function Apply(d: Doc, op: Op, wrap: Wrap): Doc {
    match op
    case Put(e) => AddText(d, e, wrap)
    case Line => DrawRule(d)
    case Space => Skip(d)
  }

  /** Runs the steps in order. */
  function Exec(d: Doc, ops: seq<Op>, wrap: Wrap): Doc
    decreases |ops|
  {
    if ops == [] then d else Exec(Apply(d, ops[0], wrap), ops[1..], wrap)
  }

  /** The steps of a list of items: one bullet text per item. */
  function ItemOps(items: seq<string>): seq<Op> {
    if items == [] then [] else [Put(Bullet(items[0]))] + ItemOps(items[1..])
  }

  function ContentOps(s: ReportSection): seq<Op> {
    if s.content != "" then [Put(Entry(s.content, ContentSize, Normal))] else []
  }

  /** The item texts and the skip after them, only when there are items. */
  function ItemsPartOps(s: ReportSection): seq<Op> {
    if HasItems(s) then ItemOps(s.items.value) + [Space] else []
  }

  /** A section: heading, rule, content, items with their skip, and the
      closing skip. */
  function SectionOps(s: ReportSection): seq<Op> {
    [Put(HeadingEntry(s)), Line] + ContentOps(s) + ItemsPartOps(s) + [Space]
  }

  function SectionsOps(sections: seq<ReportSection>): seq<Op> {
    if sections == [] then [] else SectionOps(sections[0]) + SectionsOps(sections[1..])
  }

  /** The header: title, date line, skip. */
  function HeaderOps(report: StructuredReport): seq<Op> {
    [Put(Entry(report.title, TitleSize, Bold)), Put(Entry("Date: " + report.date, DateSize, Normal)), Space]
  }

  /** Every step of the export, in order. */
  function Ops(report: StructuredReport): seq<Op> {
    HeaderOps(report) + SectionsOps(report.sections)
  }

  /** Running two programs in turn is running their concatenation. */
  lemma {:induction false} ExecAppend(d: Doc, a: seq<Op>, b: seq<Op>, wrap: Wrap)
    ensures Exec(d, a + b, wrap) == Exec(Exec(d, a, wrap), b, wrap)
    decreases |a|
  {
    if a == [] {
      assert a + b == b;
    } else {
      assert (a + b)[0] == a[0];
      assert (a + b)[1..] == a[1..] + b;
      ExecAppend(Apply(d, a[0], wrap), a[1..], b, wrap);
    }
  }

  lemma ExecOne(d: Doc, op: Op, wrap: Wrap)
    ensures Exec(d, [op], wrap) == Apply(d, op, wrap)
  {
    assert [op][1..] == [];
  }

  lemma ExecTwo(d: Doc, a: Op, b: Op, wrap: Wrap)
    ensures Exec(d, [a, b], wrap) == Apply(Apply(d, a, wrap), b, wrap)
  {
    assert [a, b][1..] == [b];
    ExecOne(Apply(d, a, wrap), b, wrap);
  }

  /** The item loop runs the item steps. */
  lemma {:induction false} ItemsProgram(d: Doc, items: seq<string>, wrap: Wrap)
    ensures AddItems(d, items, wrap) == Exec(d, ItemOps(items), wrap)
    decreases |items|
  {
    if items != [] {
      var ops := ItemOps(items);
      assert ops[0] == Put(Bullet(items[0]));
      assert ops[1..] == ItemOps(items[1..]);
      ItemsProgram(AddText(d, Bullet(items[0]), wrap), items[1..], wrap);
    }
  }

  /** A section runs its steps: heading, rule, content, items, skips. */
  lemma SectionProgram(d: Doc, s: ReportSection, wrap: Wrap)
    ensures AddSection(d, s, wrap) == Exec(d, SectionOps(s), wrap)
  {
    var open := [Put(HeadingEntry(s)), Line];
    var d1 := OpenSection(d, s, wrap);
    var d2 := SectionContent(d1, s, wrap);
    var d3 := SectionItems(d2, s, wrap);
    ExecTwo(d, Put(HeadingEntry(s)), Line, wrap);
    assert Exec(d, open, wrap) == d1;
    if s.content != "" {
      ExecOne(d1, Put(Entry(s.content, ContentSize, Normal)), wrap);
    }
    assert Exec(d1, ContentOps(s), wrap) == d2;
    if HasItems(s) {
      var a := AddItems(d2, s.items.value, wrap);
      ItemsProgram(d2, s.items.value, wrap);
      ExecAppend(d2, ItemOps(s.items.value), [Space], wrap);
      ExecOne(a, Space, wrap);
    }
    assert Exec(d2, ItemsPartOps(s), wrap) == d3;
    ExecOne(d3, Space, wrap);
    ExecAppend(d, open, ContentOps(s), wrap);
    ExecAppend(d, open + ContentOps(s), ItemsPartOps(s), wrap);
    ExecAppend(d, open + ContentOps(s) + ItemsPartOps(s), [Space], wrap);
  }

  lemma {:induction false} SectionsProgram(d: Doc, sections: seq<ReportSection>, wrap: Wrap)
    ensures AddSections(d, sections, wrap) == Exec(d, SectionsOps(sections), wrap)
    decreases |sections|
  {
    if sections != [] {
      SectionProgram(d, sections[0], wrap);
      SectionsProgram(AddSection(d, sections[0], wrap), sections[1..], wrap);
      ExecAppend(d, SectionOps(sections[0]), SectionsOps(sections[1..]), wrap);
    }
  }

  /** The export is exactly its straight-line program run on a fresh
      document: every cursor step, page break and skip, in order. */
  lemma LayoutIsProgram(report: StructuredReport, wrap: Wrap)
    ensures Layout(report, wrap) == Exec(Fresh, Ops(report), wrap)
  {
    var h := HeaderOps(report);
    assert h == [h[0], h[1]] + [Space];
    ExecTwo(Fresh, h[0], h[1], wrap);
    ExecAppend(Fresh, [h[0], h[1]], [Space], wrap);
    ExecOne(Exec(Fresh, [h[0], h[1]], wrap), Space, wrap);
    assert Header(report, wrap) == Exec(Fresh, h, wrap);
    SectionsProgram(Header(report, wrap), report.sections, wrap);
    ExecAppend(Fresh, h, SectionsOps(report.sections), wrap);
  }

  // ---------------------------------------------------------------------
  // Properties of the layout

  /** The export draws exactly the expected texts, in order: the title,
      the date line, then per section the upper-cased heading, the
      non-empty content and a bulleted line per item. */
  lemma LayoutDrawsExpected(report: StructuredReport, wrap: Wrap)
    ensures TextsOf(Layout(report, wrap).marks) == ExpectedEntries(report)
  {
  }

  /** The number of texts is two plus, per section, one for the heading,
      one for non-empty content and one per item. */
  lemma {:induction false} EntryCount(report: StructuredReport)
    ensures |ExpectedEntries(report)| == 2 + SectionsCalls(report.sections)
  {
    SectionsEntriesCount(report.sections);
  }

  lemma {:induction false} SectionsEntriesCount(sections: seq<ReportSection>)
    ensures |SectionsEntries(sections)| == SectionsCalls(sections)
  {
    if sections != [] {
      SectionsEntriesCount(sections[1..]);
    }
  }

  /** Pages are added only by overflowing texts, and every mark lies on
      the page the overflows before it reached, within the page's bounds. */
  lemma LayoutPages(report: StructuredReport, wrap: Wrap)
    ensures Layout(report, wrap).pages == 1 + OverflowCount(Layout(report, wrap).marks)
    ensures forall k :: 0 <= k < |Layout(report, wrap).marks| ==>
      var m := Layout(report, wrap).marks[k];
      && m.page == 1 + OverflowCount(Layout(report, wrap).marks[..k])
      && (m.Text? ==> Top <= m.y <= Lowest)
      && (m.Rule? ==> Top - RuleRise <= m.y <= Bottom - RuleRise)
  {
    WellPlacedAll(Layout(report, wrap).marks);
  }

  // ---------------------------------------------------------------------
  // The file name

  /** `replace(/\s+/g, '_')`: each maximal run of whitespace becomes one
      underscore. */
  function Sanitize(s: string): (r: string)
    ensures NoWhitespace(r)
    ensures |r| <= |s|
    decreases |s|
  {
    if s == [] then []
    else if IsWhitespace(s[0]) then "_" + Sanitize(s[WhitespaceRunFrom(s, 0)..])
    else [s[0]] + Sanitize(s[1..])
  }

  /** Text without whitespace is left as it is. */
  lemma {:induction false} SanitizeIdentity(s: string)
    requires NoWhitespace(s)
    ensures Sanitize(s) == s
    decreases |s|
  {
    if s != [] {
      SanitizeIdentity(s[1..]);
    }
  }

  /** Sanitizing twice is sanitizing once. */
  lemma SanitizeIdempotent(s: string)
    ensures Sanitize(Sanitize(s)) == Sanitize(s)
  {
    SanitizeIdentity(Sanitize(s));
  }

  /** A non-empty whitespace run on its own becomes one underscore. */
  lemma SanitizeRun(w: string)
    requires w != [] && IsBlank(w)
    ensures Sanitize(w) == "_"
  {
    assert WhitespaceRunFrom(w, 0) == |w| by {
      RunFromBlank(w, 0);
    }
  }

  lemma {:induction false} RunFromBlank(w: string, i: nat)
    requires i <= |w| && IsBlank(w)
    ensures WhitespaceRunFrom(w, i) == |w|
    decreases |w| - i
  {
    if i < |w| {
      RunFromBlank(w, i + 1);
    }
  }

  /** A whitespace run that stops inside `a` stops at the same place in
      `a + b`; one that reaches the end of `a` continues into `b` only as
      far as `b`'s own leading run. */
  lemma {:induction false} RunFromAppend(a: string, b: string, i: nat)
    requires i <= |a|
    ensures WhitespaceRunFrom(a, i) < |a| ==> WhitespaceRunFrom(a + b, i) == WhitespaceRunFrom(a, i)
    ensures WhitespaceRunFrom(a, i) == |a| ==> WhitespaceRunFrom(a + b, i) == |a| + WhitespaceRunFrom(b, 0)
    decreases |a| - i
  {
    if i < |a| && IsWhitespace(a[i]) {
      RunFromAppend(a, b, i + 1);
    } else if i == |a| {
      RunFromShift(a, b, 0);
    }
  }

  lemma {:induction false} RunFromShift(a: string, b: string, j: nat)
    requires j <= |b|
    ensures WhitespaceRunFrom(a + b, |a| + j) == |a| + WhitespaceRunFrom(b, j)
    decreases |b| - j
  {
    if j < |b| && IsWhitespace(b[j]) {
      RunFromShift(a, b, j + 1);
    }
  }

  /** Sanitizing distributes over a join that does not split a whitespace
      run. */
  lemma {:induction false} SanitizeAppend(a: string, b: string)
    requires a == [] || b == [] || !IsWhitespace(a[|a| - 1]) || !IsWhitespace(b[0])
    ensures Sanitize(a + b) == Sanitize(a) + Sanitize(b)
    decreases |a|, 1
  {
    if a == [] {
      assert a + b == b;
    } else if !IsWhitespace(a[0]) {
      assert (a + b)[1..] == a[1..] + b;
      SanitizeAppend(a[1..], b);
    } else {
      RunFromAppend(a, b, 0);
      if WhitespaceRunFrom(a, 0) < |a| {
        LeadingRunAppend(a, b);
      } else {
        BlankAppend(a, b);
      }
    }
  }

  /** The case of `SanitizeAppend` where `a` starts with a whitespace run
      that ends inside it. */
  lemma {:induction false} LeadingRunAppend(a: string, b: string)
    requires a != [] && IsWhitespace(a[0]) && WhitespaceRunFrom(a, 0) < |a|
    requires b == [] || !IsWhitespace(a[|a| - 1]) || !IsWhitespace(b[0])
    requires WhitespaceRunFrom(a + b, 0) == WhitespaceRunFrom(a, 0)
    ensures Sanitize(a + b) == Sanitize(a) + Sanitize(b)
    decreases |a|, 0
  {
    var n := WhitespaceRunFrom(a, 0);
    assert (a + b)[n..] == a[n..] + b;
    SanitizeAppend(a[n..], b);
  }

  /** A blank `a` followed by text that does not start with whitespace
      sanitizes to an underscore before that text's sanitized form. */
  lemma BlankAppend(a: string, b: string)
    requires a != [] && IsWhitespace(a[0]) && WhitespaceRunFrom(a, 0) == |a|
    requires b == [] || !IsWhitespace(b[0])
    requires WhitespaceRunFrom(a + b, 0) == |a| + WhitespaceRunFrom(b, 0)
    ensures Sanitize(a + b) == Sanitize(a) + Sanitize(b)
  {
    assert a[|a|..] == [];
    assert Sanitize(a) == "_";
    if b == [] {
      assert a + b == a;
    } else {
      assert (a + b)[|a|..] == b;
    }
  }

  /** A whitespace run between two parts that do not touch it becomes a
      single underscore between their sanitized forms. */
  lemma RunCollapses(a: string, w: string, b: string)
    requires w != [] && IsBlank(w)
    requires a == [] || !IsWhitespace(a[|a| - 1])
    requires b == [] || !IsWhitespace(b[0])
    ensures Sanitize(a + w + b) == Sanitize(a) + "_" + Sanitize(b)
  {
    var wb := w + b;
    assert a + w + b == a + wb;
    SanitizeRun(w);
    SanitizeAppend(w, b);
    SanitizeAppend(a, wb);
  }

  /** The saved file's name: the sanitized title, an underscore, the
      timestamp in milliseconds and the extension. */
  function FileName(title: string, stamp: nat): (r: string)
    ensures NoWhitespace(r)
    ensures |r| >= 6 && r[|r| - 4..] == ".pdf"
  {
    Sanitize(title) + "_" + NatToDecimal(stamp) + ".pdf"
  }

  /** The position of the last occurrence of `c`. */
  function LastIndexOf(s: string, c: char): (r: Option<nat>)
    ensures r.Some? ==> r.value < |s| && s[r.value] == c
    ensures r.Some? ==> forall k :: r.value < k < |s| ==> s[k] != c
    ensures r.None? ==> forall k :: 0 <= k < |s| ==> s[k] != c
  {
    if s == [] then None
    else if s[|s| - 1] == c then Some(|s| - 1)
    else LastIndexOf(s[..|s| - 1], c)
  }

  /** Reads the timestamp back out of a file name. */
  function StampOf(name: string): (r: Option<nat>)
    ensures r.Some? ==> |name| >= 4 && name[|name| - 4..] == ".pdf"
  {
    if |name| < 4 || name[|name| - 4..] != ".pdf" then None
    else
      var body := name[..|name| - 4];
      match LastIndexOf(body, '_')
      case None => None
      case Some(i) =>
        var digits := body[i + 1..];
        if IsCanonicalDecimal(digits) then Some(DecimalValue(digits)) else None
  }

  /** Reads the title part back out of a file name: everything before the
      last underscore of the name without its extension. */
  function TitleOf(name: string): (r: Option<string>)
    ensures r.Some? ==> |name| >= 4 && name[|name| - 4..] == ".pdf"
    ensures r.Some? ==> |r.value| < |name| - 4 && name[..|r.value|] == r.value && name[|r.value|] == '_'
  {
    if |name| < 4 || name[|name| - 4..] != ".pdf" then None
    else
      var body := name[..|name| - 4];
      match LastIndexOf(body, '_')
      case None => None
      case Some(i) => Some(body[..i])
  }

  /** Both parts can be read back from the file name: the sanitized title
      before a single separating underscore, and the timestamp after it. */
  lemma FileNameRoundTrip(title: string, stamp: nat)
    ensures StampOf(FileName(title, stamp)) == Some(stamp)
    ensures TitleOf(FileName(title, stamp)) == Some(Sanitize(title))
    ensures FileName(title, stamp)[..|Sanitize(title)|] == Sanitize(title)
  {
    var t := Sanitize(title);
    var ds := NatToDecimal(stamp);
    var name := FileName(title, stamp);
    var body := t + "_" + ds;
    assert name == body + ".pdf";
    assert name[..|name| - 4] == body;
    assert body[|t|] == '_';
    assert forall k :: |t| < k < |body| ==> body[k] == ds[k - |t| - 1];
    assert LastIndexOf(body, '_') == Some(|t|);
    assert body[|t| + 1..] == ds;
    assert body[..|t|] == t;
    DecimalRoundTrip(stamp);
  }

  /** What the export produces: the document and the name it is saved
      under. */
  datatype Export = Export(doc: Doc, fileName: string)

  function Download(report: StructuredReport, wrap: Wrap, stamp: nat): (r: Export)
    ensures TextsOf(r.doc.marks) == ExpectedEntries(report)
    ensures r.doc.pages == 1 + OverflowCount(r.doc.marks)
    ensures StampOf(r.fileName) == Some(stamp)
    ensures TitleOf(r.fileName) == Some(Sanitize(report.title))
  {
    LayoutDrawsExpected(report, wrap);
    LayoutPages(report, wrap);
    FileNameRoundTrip(report.title, stamp);
    Export(Layout(report, wrap), FileName(report.title, stamp))
  }
}

=== FILE: session.dfy ===
/**
 The page and its capture adapter wired together: the adapter's callbacks
 are delivered to the controller's handlers, and the controller's record
 button drives the adapter's `start`/`stop`.
 */
module Session {
  import opened Types
  import opened Strings
  import Speech
  import App

  /** The controller, the adapter, and the platform calls issued so far. */
  datatype Session = Session(app: App.Model, adapter: Speech.Adapter, calls: seq<Speech.PlatformCall>)

  /** The controller handler an adapter callback is wired to. */
  function Handle(m: App.Model, c: Speech.Callback): App.Model {
    match c
    case Partial(text) => App.OnPartial(m, text)
    case Final(text) => App.OnFinal(m, text)
    case Failed(message) => App.OnError(m, message)
    case StateChanged(active) => App.OnStateChange(m, active)
  }

  /** Delivers callbacks to the controller in the order they were made. */
  function Deliver(m: App.Model, cbs: seq<Speech.Callback>): App.Model {
    if cbs == [] then m else Handle(Deliver(m, cbs[..|cbs| - 1]), cbs[|cbs| - 1])
  }

  /** Delivering at most one callback. */
  lemma Deliver1(m: App.Model, cbs: seq<Speech.Callback>)
    requires |cbs| <= 1
    ensures Deliver(m, cbs) == if cbs == [] then m else Handle(m, cbs[0])
  {
    if cbs != [] {
      assert cbs[..0] == [];
    }
  }

  /** Mounting the page: the controller starts from its initial state and
      receives whatever the adapter's constructor reports. */
  function Mount(supported: bool): (r: Session)
    ensures r.adapter.hasRecognition == supported && r.calls == []
    ensures !r.app.isRecording && !r.adapter.isRecording
    ensures !supported ==> r.app.appState == Error && r.app.error == Some(Speech.UnsupportedMessage)
    ensures supported ==> r.app == App.Initial
  {
    var c := Speech.Create(supported);
    Deliver1(App.Initial, c.callbacks);
    Session(Deliver(App.Initial, c.callbacks), c.adapter, c.calls)
  }

  /** Something that happens to the page. */
  datatype Action =
    | Press
    | Platform(event: Speech.PlatformEvent)
    | Generate
    | Finish(outcome: App.Outcome)
    | Clear(confirmed: bool)
    | Edit(text: string)
    | Dismiss

  /** The record button: the controller's toggle, then the adapter call it
      asks for. */
  function Press(s: Session): (r: Session)
    ensures r.adapter == s.adapter
    ensures r.app == App.ToggleRecording(s.app).model
    ensures !s.adapter.hasRecognition ==> r.calls == s.calls
    ensures s.adapter.hasRecognition && !s.app.isRecording ==>
      r.calls == s.calls + (if s.adapter.isRecording then [] else [Speech.PlatformStart])
    ensures s.adapter.hasRecognition && s.app.isRecording ==>
      r.calls == s.calls + (if s.adapter.isRecording then [Speech.PlatformStop] else [])
  {
    var t := App.ToggleRecording(s.app);
    var q := if t.command == App.StartCapture then Speech.Start(s.adapter) else Speech.Stop(s.adapter);
    Session(Deliver(t.model, q.callbacks), q.adapter, s.calls + q.calls)
  }

  function Step(s: Session, a: Action): Session {
    match a
    case Press => Press(s)
    case Platform(ev) =>
      var q := Speech.OnEvent(s.adapter, ev);
      Session(Deliver(s.app, q.callbacks), q.adapter, s.calls + q.calls)
    case Generate => s.(app := App.Step(s.app, App.Generate))
    case Finish(o) => s.(app := App.Step(s.app, App.Finish(o)))
    case Clear(c) => s.(app := App.Step(s.app, App.Clear(c)))
    case Edit(t) => s.(app := App.Step(s.app, App.Edit(t)))
    case Dismiss => s.(app := App.Step(s.app, App.Dismiss))
  }

  function Run(s: Session, actions: seq<Action>): Session {
    if actions == [] then s else Step(Run(s, actions[..|actions| - 1]), actions[|actions| - 1])
  }

  /** The platform delivers recognition results only between its start and
      end notifications. */
  predicate Plausible(s: Session, a: Action) {
    a.Platform? && a.event.Results? ==> s.adapter.isRecording
  }

  /** Every action of the sequence is plausible where it happens. */
  predicate Admissible(s: Session, actions: seq<Action>) {
    actions == []
    || (Admissible(s, actions[..|actions| - 1]) && Plausible(Run(s, actions[..|actions| - 1]), actions[|actions| - 1]))
  }

  /** The controller's capture flag mirrors the adapter's, and no interim
      text is shown while capture is off. */
  predicate Synced(s: Session) {
    s.app.isRecording == s.adapter.isRecording && (!s.app.isRecording ==> s.app.interim == "")
  }

  /** Callbacks without a state change leave the controller's capture flag
      alone. */
  lemma {:induction false} DeliverKeepsFlag(m: App.Model, cbs: seq<Speech.Callback>)
    requires forall k :: 0 <= k < |cbs| ==> !cbs[k].StateChanged?
    ensures Deliver(m, cbs).isRecording == m.isRecording
  {
    if cbs != [] {
      DeliverKeepsFlag(m, cbs[..|cbs| - 1]);
    }
  }

  /** Every plausible action keeps the controller and the adapter in
      step. */
  lemma StepKeepsSynced(s: Session, a: Action)
    requires Synced(s) && Plausible(s, a)
    ensures Synced(Step(s, a))
  {
    match a
    case Platform(ev) =>
      if s.adapter.hasRecognition {
        match ev
        case Results(rs, i) =>
          Speech.ResultCallbacksKinds(rs, i);
          DeliverKeepsFlag(s.app, Speech.ResultCallbacks(rs, i));
        case ErrorEvent(code) =>
          Deliver1(s.app, Speech.OnEvent(s.adapter, ev).callbacks);
        case Started =>
          Deliver1(s.app, [Speech.StateChanged(true)]);
        case Ended =>
          Deliver1(s.app, [Speech.StateChanged(false)]);
      }
    case _ =>
  }

  /** From mount on, as long as the platform keeps to its protocol, the
      controller's capture flag equals the adapter's and the interim text
      is empty whenever capture is off. */
  lemma {:induction false} ReachableSynced(supported: bool, actions: seq<Action>)
    requires Admissible(Mount(supported), actions)
    ensures Synced(Run(Mount(supported), actions))
  {
    if actions != [] {
      var init := actions[..|actions| - 1];
      ReachableSynced(supported, init);
      StepKeepsSynced(Run(Mount(supported), init), actions[|actions| - 1]);
    }
  }

  /** In step, the record button asks the platform to stop exactly when
      the controller shows capture on, and to start otherwise. */
  lemma PressDrivesPlatform(s: Session)
    requires Synced(s) && s.adapter.hasRecognition
    ensures Press(s).calls == s.calls + [if s.app.isRecording then Speech.PlatformStop else Speech.PlatformStart]
  {
  }

  /** In step, an enabled generate button always starts a generation: the
      enabled-but-blank case needs interim text while capture is off,
      which the wiring never shows. */
  lemma EnabledGenerateStartsInSession(s: Session)
    requires Synced(s) && App.CanGenerate(s.app)
    ensures App.BeginGenerate(s.app).request == Some(Trim(s.app.transcript))
  {
    App.EnabledGenerateStarts(s.app);
  }

  /** Without the capability the page never issues a platform call and
      never shows capture on, whatever happens. */
  lemma {:induction false} UnsupportedNeverCaptures(actions: seq<Action>)
    ensures Run(Mount(false), actions).adapter == Mount(false).adapter
    ensures Run(Mount(false), actions).calls == []
    ensures !Run(Mount(false), actions).app.isRecording
  {
    if actions != [] {
      UnsupportedNeverCaptures(actions[..|actions| - 1]);
    }
  }

  /** Without the capability, pressing the record button erases the only
      explanation: the controller clears the error before asking for a
      start that never comes, and the page stays in the error mode with
      no message. */
  lemma UnsupportedPressErasesMessage()
    ensures Mount(false).app.error == Some(Speech.UnsupportedMessage)
    ensures Step(Mount(false), Action.Press).app.error == None
    ensures Step(Mount(false), Action.Press).app.appState == Error
    ensures Step(Mount(false), Action.Press).calls == []
  {
  }
}

=== FILE: speech.dfy ===
/**
 The speech capture adapter (`SpeechService`): it translates the platform
 recognizer's result events into final/partial callbacks and keeps a
 small lifecycle state, `(hasRecognition, isRecording)`, that guards the
 platform `start`/`stop` calls.

 Each handler is a pure function returning the adapter's next state, the
 callbacks it invoked on its owner, in order, and the platform calls it
 issued, in order.
 */
module Speech {
  import opened Types

  /** One entry of the recognizer's result list: the best alternative's
      text and whether the recognizer considers it final. */
  datatype RecognitionResult = RecognitionResult(transcript: string, isFinal: bool)

  /** A callback the adapter invokes on its owner. */
  datatype Callback =
    | Partial(text: string)
    | Final(text: string)
    | Failed(message: string)
    | StateChanged(active: bool)

  /** A call the adapter makes on the platform recognizer. */
  datatype PlatformCall = PlatformStart | PlatformStop

  /** An event the platform recognizer delivers to the adapter. */
  datatype PlatformEvent =
    | Started
    | Results(results: seq<RecognitionResult>, resultIndex: nat)
    | ErrorEvent(code: string)
    | Ended

  /** `hasRecognition` is false when the platform lacks the capability;
      `isRecording` is the adapter's own flag, set only by the platform's
      start and end notifications. */
  datatype Adapter = Adapter(hasRecognition: bool, isRecording: bool)

  datatype Reaction = Reaction(adapter: Adapter, callbacks: seq<Callback>, calls: seq<PlatformCall>)

  const UnsupportedMessage := "Web Speech API is not supported in this browser."

  /** The error code that is not reported as an error. */
  const NoSpeech := "no-speech"

  // ---------------------------------------------------------------------
  // Result translation
  // ---------------------------------------------------------------------

  /** The results from `resultIndex` on: the ones the handler visits. */
  function Window(results: seq<RecognitionResult>, resultIndex: nat): seq<RecognitionResult> {
    if resultIndex <= |results| then results[resultIndex..] else []
  }

  /** The texts of the final results, in order. */
  function FinalChunks(rs: seq<RecognitionResult>): seq<string> {
    if rs == [] then []
    else FinalChunks(rs[..|rs| - 1]) + (if rs[|rs| - 1].isFinal then [rs[|rs| - 1].transcript] else [])
  }

  /** The texts of the non-final results, concatenated in order. */
  function InterimText(rs: seq<RecognitionResult>): string {
    if rs == [] then ""
    else InterimText(rs[..|rs| - 1]) + (if rs[|rs| - 1].isFinal then "" else rs[|rs| - 1].transcript)
  }

  /** One `Final` callback per chunk, in order. */
  function FinalCallbacks(chunks: seq<string>): (r: seq<Callback>)
    ensures |r| == |chunks|
    ensures forall k :: 0 <= k < |r| ==> r[k] == Final(chunks[k])
  {
    seq(|chunks|, k requires 0 <= k < |chunks| => Final(chunks[k]))
  }

  /** The callbacks one result event produces: a `Final` per final result
      of the window, then exactly one `Partial` carrying the non-final
      texts joined together. */
  function ResultCallbacks(results: seq<RecognitionResult>, resultIndex: nat): (r: seq<Callback>)
    ensures |r| == |FinalChunks(Window(results, resultIndex))| + 1
    ensures r[|r| - 1] == Partial(InterimText(Window(results, resultIndex)))
    ensures forall k :: 0 <= k < |r| - 1 ==> r[k] == Final(FinalChunks(Window(results, resultIndex))[k])
  {
    var w := Window(results, resultIndex);
    FinalCallbacks(FinalChunks(w)) + [Partial(InterimText(w))]
  }

  /** The `onresult` handler as the source writes it: one pass over the
      window that emits each final text as it is met and accumulates the
      others, then one partial callback. */
  method OnResult(results: seq<RecognitionResult>, resultIndex: nat) returns (emitted: seq<Callback>)
    ensures emitted == ResultCallbacks(results, resultIndex)
  {
    var interim := "";
    emitted := [];
    var i := resultIndex;
    while i < |results|
      invariant resultIndex <= |results| ==> resultIndex <= i <= |results|
      invariant resultIndex > |results| ==> i == resultIndex && emitted == [] && interim == ""
      invariant resultIndex <= |results| ==> emitted == FinalCallbacks(FinalChunks(results[resultIndex..i]))
      invariant resultIndex <= |results| ==> interim == InterimText(results[resultIndex..i])
    {
      assert results[resultIndex..i + 1][..i - resultIndex] == results[resultIndex..i];
      var chunk := results[i].transcript;
      if results[i].isFinal {
        emitted := emitted + [Final(chunk)];
      } else {
        interim := interim + chunk;
      }
      i := i + 1;
    }
    if resultIndex <= |results| {
      assert results[resultIndex..i] == Window(results, resultIndex);
    }
    emitted := emitted + [Partial(interim)];
  }

  /** Final texts of a concatenation are the final texts of each part, so
      a batch of results may be delivered in two events without changing
      which final chunks the owner receives. */
  lemma {:induction false} FinalChunksAppend(a: seq<RecognitionResult>, b: seq<RecognitionResult>)
    ensures FinalChunks(a + b) == FinalChunks(a) + FinalChunks(b)
    decreases |b|
  {
    if b != [] {
      assert (a + b)[..|a + b| - 1] == a + b[..|b| - 1];
      FinalChunksAppend(a, b[..|b| - 1]);
    } else {
      assert a + b == a;
    }
  }

  /** Interim text of a concatenation is the interim text of each part,
      joined: the partial text of a batch does not depend on how it was
      split. */
  lemma {:induction false} InterimTextAppend(a: seq<RecognitionResult>, b: seq<RecognitionResult>)
    ensures InterimText(a + b) == InterimText(a) + InterimText(b)
    decreases |b|
  {
    if b != [] {
      assert (a + b)[..|a + b| - 1] == a + b[..|b| - 1];
      InterimTextAppend(a, b[..|b| - 1]);
    } else {
      assert a + b == a;
    }
  }

  /** Results before `resultIndex` contribute nothing: an event over
      `seen + recent` starting at `|seen|` produces what an event over `recent`
      alone would. */
  lemma EarlierResultsIgnored(seen: seq<RecognitionResult>, recent: seq<RecognitionResult>)
    ensures ResultCallbacks(seen + recent, |seen|) == ResultCallbacks(recent, 0)
  {
    assert (seen + recent)[|seen|..] == recent;
  }

  /** A result event never reports an error or a state change, and of its
      callbacks only the last is partial. */
  lemma ResultCallbacksKinds(results: seq<RecognitionResult>, resultIndex: nat)
    ensures forall k :: 0 <= k < |ResultCallbacks(results, resultIndex)| ==>
      var c := ResultCallbacks(results, resultIndex)[k];
      !c.Failed? && !c.StateChanged? && (c.Partial? <==> k == |ResultCallbacks(results, resultIndex)| - 1)
  {
  }

  // ---------------------------------------------------------------------
  // Lifecycle
  // ---------------------------------------------------------------------

  /** The constructor: without the capability it reports the fixed
      message once and stays without a recognizer. */
  function Create(supported: bool): (r: Reaction)
    ensures !r.adapter.isRecording && r.calls == []
    ensures r.adapter.hasRecognition == supported
    ensures supported ==> r.callbacks == []
    ensures !supported ==> r.callbacks == [Failed(UnsupportedMessage)]
  {
    if supported then Reaction(Adapter(true, false), [], [])
    else Reaction(Adapter(false, false), [Failed(UnsupportedMessage)], [])
  }

  /** `start()`: asks the platform to start only when a recognizer exists
      and the adapter is not recording. */
  function Start(a: Adapter): (r: Reaction)
    ensures r.adapter == a && r.callbacks == []
    ensures r.calls == [PlatformStart] <==> a.hasRecognition && !a.isRecording
    ensures r.calls == [] <==> !(a.hasRecognition && !a.isRecording)
  {
    if a.hasRecognition && !a.isRecording then
      Reaction(a, [], [PlatformStart])
    else
      Reaction(a, [], [])
  }

  /** `stop()`: asks the platform to stop only when a recognizer exists
      and the adapter is recording. */
  function Stop(a: Adapter): (r: Reaction)
    ensures r.adapter == a && r.callbacks == []
    ensures r.calls == [PlatformStop] <==> a.hasRecognition && a.isRecording
    ensures r.calls == [] <==> !(a.hasRecognition && a.isRecording)
  {
    if a.hasRecognition && a.isRecording then Reaction(a, [], [PlatformStop]) else Reaction(a, [], [])
  }

  /** `onerror`: forwards every code but `no-speech`, then calls `stop()`. */
  function OnErrorEvent(a: Adapter, code: string): (r: Reaction)
    requires a.hasRecognition
    ensures r.adapter == a
    ensures code != NoSpeech ==> r.callbacks == [Failed(code)]
    ensures code == NoSpeech ==> r.callbacks == []
    ensures r.calls == Stop(a).calls
  {
    Reaction(a, if code != NoSpeech then [Failed(code)] else [], Stop(a).calls)
  }

  /** Dispatches a platform event. Handlers exist only when a recognizer
      was created, so without one every event is ignored. */
  function OnEvent(a: Adapter, ev: PlatformEvent): (r: Reaction)
    ensures r.adapter.hasRecognition == a.hasRecognition
    ensures !a.hasRecognition ==> r == Reaction(a, [], [])
    ensures a.hasRecognition && ev.Started? ==>
      r.adapter.isRecording && r.callbacks == [StateChanged(true)] && r.calls == []
    ensures a.hasRecognition && ev.Ended? ==>
      !r.adapter.isRecording && r.callbacks == [StateChanged(false)] && r.calls == []
    ensures ev.Results? || ev.ErrorEvent? ==> r.adapter == a
    ensures a.hasRecognition && ev.Results? ==>
      r.callbacks == ResultCallbacks(ev.results, ev.resultIndex) && r.calls == []
    ensures a.hasRecognition && ev.ErrorEvent? ==> r == OnErrorEvent(a, ev.code)
  {
    if !a.hasRecognition then Reaction(a, [], [])
    else
      match ev
      case Started => Reaction(a.(isRecording := true), [StateChanged(true)], [])
      case Results(rs, i) => Reaction(a, ResultCallbacks(rs, i), [])
      case ErrorEvent(code) => OnErrorEvent(a, code)
      case Ended => Reaction(a.(isRecording := false), [StateChanged(false)], [])
  }

  /** Something that reaches the adapter: an owner's call or a platform
      event. */
  datatype Input = UserStart | UserStop | Platform(event: PlatformEvent)

  function React(a: Adapter, input: Input): Reaction {
    match input
    case UserStart => Start(a)
    case UserStop => Stop(a)
    case Platform(ev) => OnEvent(a, ev)
  }

  /** Feeds the inputs in order, collecting callbacks and platform calls. */
  function Run(a: Adapter, inputs: seq<Input>): Reaction {
    if inputs == [] then Reaction(a, [], [])
    else
      var p := Run(a, inputs[..|inputs| - 1]);
      var q := React(p.adapter, inputs[|inputs| - 1]);
      Reaction(q.adapter, p.callbacks + q.callbacks, p.calls + q.calls)
  }

  /** The flag of the most recent state-change callback, if any. */
  function LastStateChange(cbs: seq<Callback>): Option<bool> {
    if cbs == [] then None
    else if cbs[|cbs| - 1].StateChanged? then Some(cbs[|cbs| - 1].active)
    else LastStateChange(cbs[..|cbs| - 1])
  }

  /** The state the owner was last told about (not recording before any
      notification). */
  function ReportedRecording(cbs: seq<Callback>): bool {
    var last := LastStateChange(cbs);
    last.Some? && last.value
  }

  lemma {:induction false} LastStateChangeAppend(a: seq<Callback>, b: seq<Callback>)
    ensures LastStateChange(a + b) == if LastStateChange(b).Some? then LastStateChange(b) else LastStateChange(a)
    decreases |b|
  {
    if b != [] {
      assert (a + b)[..|a + b| - 1] == a + b[..|b| - 1];
      LastStateChangeAppend(a, b[..|b| - 1]);
    } else {
      assert a + b == a;
    }
  }

  /** A step that reports no state change leaves `isRecording` alone; one
      that reports a state change reports the flag it leaves. */
  lemma ReactReportsState(a: Adapter, input: Input)
    ensures LastStateChange(React(a, input).callbacks).None? ==>
      React(a, input).adapter.isRecording == a.isRecording
    ensures LastStateChange(React(a, input).callbacks).Some? ==>
      LastStateChange(React(a, input).callbacks) == Some(React(a, input).adapter.isRecording)
  {
    var r := React(a, input);
    if input.Platform? && a.hasRecognition {
      match input.event
      case Results(rs, i) =>
        ResultCallbacksKinds(rs, i);
        NoStateChangeIn(r.callbacks);
      case ErrorEvent(code) =>
        NoStateChangeIn(r.callbacks);
      case Started =>
      case Ended =>
    }
  }

  lemma {:induction false} NoStateChangeIn(cbs: seq<Callback>)
    requires forall k :: 0 <= k < |cbs| ==> !cbs[k].StateChanged?
    ensures LastStateChange(cbs).None?
  {
    if cbs != [] {
      NoStateChangeIn(cbs[..|cbs| - 1]);
    }
  }

  /** Whatever the owner calls and the platform delivers after
      construction, the adapter's `isRecording` equals the state it last
      reported through `onStateChange`. */
  lemma {:induction false} RecordingMatchesReportedState(supported: bool, inputs: seq<Input>)
    ensures Run(Create(supported).adapter, inputs).adapter.isRecording
      == ReportedRecording(Create(supported).callbacks + Run(Create(supported).adapter, inputs).callbacks)
  {
    var c := Create(supported);
    if inputs == [] {
      assert c.callbacks + [] == c.callbacks;
      NoStateChangeIn(c.callbacks);
    } else {
      var init := inputs[..|inputs| - 1];
      RecordingMatchesReportedState(supported, init);
      var p := Run(c.adapter, init);
      var q := React(p.adapter, inputs[|inputs| - 1]);
      ReactReportsState(p.adapter, inputs[|inputs| - 1]);
      assert c.callbacks + (p.callbacks + q.callbacks) == (c.callbacks + p.callbacks) + q.callbacks;
      LastStateChangeAppend(c.callbacks + p.callbacks, q.callbacks);
    }
  }

  /** Without the capability the constructor's message is the only
      callback ever, and no platform call is ever made: `start` and `stop`
      are permanently inert. */
  lemma {:induction false} UnsupportedIsInert(inputs: seq<Input>)
    ensures Create(false).callbacks == [Failed(UnsupportedMessage)]
    ensures Run(Create(false).adapter, inputs) == Reaction(Create(false).adapter, [], [])
  {
    if inputs != [] {
      UnsupportedIsInert(inputs[..|inputs| - 1]);
    }
  }

  /** Whether a recognizer exists never changes after construction. */
  lemma {:induction false} RecognitionIsFixed(a: Adapter, inputs: seq<Input>)
    ensures Run(a, inputs).adapter.hasRecognition == a.hasRecognition
  {
    if inputs != [] {
      RecognitionIsFixed(a, inputs[..|inputs| - 1]);
    }
  }

  /** A `no-speech` error is never forwarded and every other code is
      forwarded exactly once; both stop the recognizer when it is
      recording. */
  lemma ErrorForwarding(a: Adapter, code: string)
    requires a.hasRecognition
    ensures (exists k :: 0 <= k < |OnEvent(a, ErrorEvent(code)).callbacks|
               && OnEvent(a, ErrorEvent(code)).callbacks[k].Failed?) <==> code != NoSpeech
    ensures |OnEvent(a, ErrorEvent(code)).callbacks| <= 1
    ensures OnEvent(a, ErrorEvent(code)).calls == (if a.isRecording then [PlatformStop] else [])
  {
    if code != NoSpeech {
      assert OnEvent(a, ErrorEvent(code)).callbacks[0].Failed?;
    }
  }
}

=== FILE: strings.dfy ===
/**
 Text helpers shared by the controller, the capture adapter and the
 document exporter: the whitespace class used by `trim` and by the `\s`
 pattern, trimming, ASCII upper-casing and decimal rendering of
 non-negative numbers.
 */
module Strings {

  /** The fixed whitespace class: space, tab, line feed, carriage return,
      form feed and vertical tab. */
  predicate IsWhitespace(c: char) {
    c == ' ' || c == '\t' || c == '\n' || c == '\r' || c == '\U{000C}' || c == '\U{000B}'
  }

  /** Every character is whitespace (the empty string included). */
  predicate IsBlank(s: string) {
    forall i :: 0 <= i < |s| ==> IsWhitespace(s[i])
  }

  /** No character is whitespace. */
  predicate NoWhitespace(s: string) {
    forall i :: 0 <= i < |s| ==> !IsWhitespace(s[i])
  }

  /** Neither end of `s` is whitespace. */
  predicate IsTrimmed(s: string) {
    s == [] || (!IsWhitespace(s[0]) && !IsWhitespace(s[|s| - 1]))
  }

  /** The end of the whitespace run that starts at `i`. */
  function WhitespaceRunFrom(s: string, i: nat): (n: nat)
    requires i <= |s|
    ensures i <= n <= |s|
    ensures forall k :: i <= k < n ==> IsWhitespace(s[k])
    ensures n == |s| || !IsWhitespace(s[n])
    decreases |s| - i
  {
    if i < |s| && IsWhitespace(s[i]) then WhitespaceRunFrom(s, i + 1) else i
  }

  /** The start of the whitespace run that ends at `j`. */
  function WhitespaceRunBefore(s: string, j: nat): (n: nat)
    requires j <= |s|
    ensures n <= j
    ensures forall k :: n <= k < j ==> IsWhitespace(s[k])
    ensures n == 0 || !IsWhitespace(s[n - 1])
  {
    if j > 0 && IsWhitespace(s[j - 1]) then WhitespaceRunBefore(s, j - 1) else j
  }

  /** Where the trimmed text starts: the length of the leading
      whitespace run. */
  function TrimStartIndex(s: string): (a: nat)
    ensures a <= |s|
  {
    WhitespaceRunFrom(s, 0)
  }

  /** Where the trimmed text ends: the start of the trailing whitespace
      run, or the start index when `s` is blank. */
  function TrimEndIndex(s: string): (b: nat)
    ensures TrimStartIndex(s) <= b <= |s|
  {
    var a := TrimStartIndex(s);
    var b := WhitespaceRunBefore(s, |s|);
    if b < a then a else b
  }

  /** String.prototype.trim over the fixed whitespace class. */
  function Trim(s: string): (r: string)
    ensures IsTrimmed(r)
    ensures |r| <= |s|
    ensures r == [] <==> IsBlank(s)
    ensures IsTrimmed(s) ==> r == s
  {
    var a := TrimStartIndex(s);
    var b := TrimEndIndex(s);
    var r := s[a..b];
    assert r != [] ==> r[0] == s[a] && r[|r| - 1] == s[b - 1];
    assert IsTrimmed(s) && s != [] ==> a == 0 && b == |s|;
    r
  }

  /** Trimming twice is trimming once. */
  lemma TrimIdempotent(s: string)
    ensures Trim(Trim(s)) == Trim(s)
  {
  }

  /** The trimmed string is the middle of `s`, with only whitespace cut
      off on either side. */
  lemma TrimIsInfix(s: string)
    ensures TrimStartIndex(s) + |Trim(s)| <= |s|
    ensures Trim(s) == s[TrimStartIndex(s)..TrimStartIndex(s) + |Trim(s)|]
    ensures forall i :: 0 <= i < TrimStartIndex(s) ==> IsWhitespace(s[i])
    ensures forall i :: TrimStartIndex(s) + |Trim(s)| <= i < |s| ==> IsWhitespace(s[i])
  {
  }

  /** ASCII lower-case letters become upper-case; every other character
      is kept. */
  function UpperChar(c: char): char {
    if 'a' <= c <= 'z' then (c as int - 32) as char else c
  }

  /** String.prototype.toUpperCase restricted to ASCII letters. */
  function ToUpper(s: string): (r: string)
    ensures |r| == |s|
    ensures forall i :: 0 <= i < |s| ==> r[i] == UpperChar(s[i])
  {
    seq(|s|, i requires 0 <= i < |s| => UpperChar(s[i]))
  }

  /** Upper-casing leaves no ASCII lower-case letter and is idempotent, so
      an exported heading that is already upper-case is drawn as it is. */
  lemma ToUpperIdempotent(s: string)
    ensures forall i :: 0 <= i < |s| ==> !('a' <= ToUpper(s)[i] <= 'z')
    ensures ToUpper(ToUpper(s)) == ToUpper(s)
  {
  }

  predicate IsDigit(c: char) {
    '0' <= c <= '9'
  }

  predicate AllDigits(s: string) {
    forall i :: 0 <= i < |s| ==> IsDigit(s[i])
  }

  /** The form a number takes when rendered: at least one digit and no
      leading zero unless the number is zero itself. */
  predicate IsCanonicalDecimal(s: string) {
    |s| >= 1 && AllDigits(s) && (|s| == 1 || s[0] != '0')
  }

  function DigitChar(d: nat): (c: char)
    requires d < 10
    ensures IsDigit(c)
  {
    ('0' as int + d) as char
  }

  function DigitValue(c: char): (d: nat)
    requires IsDigit(c)
    ensures d < 10
  {
    c as int - '0' as int
  }

  /** The value of a digit string, most significant digit first. */
  function DecimalValue(s: string): nat
    requires AllDigits(s)
  {
    if s == [] then 0 else DecimalValue(s[..|s| - 1]) * 10 + DigitValue(s[|s| - 1])
  }

  /** Number.prototype.toString for a non-negative integer. */
  function NatToDecimal(n: nat): (r: string)
    ensures IsCanonicalDecimal(r)
    ensures NoWhitespace(r)
  {
    if n < 10 then [DigitChar(n)] else NatToDecimal(n / 10) + [DigitChar(n % 10)]
  }

  /** Rendering and reading back a number gives the number. */
  lemma {:induction false} DecimalRoundTrip(n: nat)
    ensures DecimalValue(NatToDecimal(n)) == n
  {
    if n >= 10 {
      var s := NatToDecimal(n);
      assert s[..|s| - 1] == NatToDecimal(n / 10);
      DecimalRoundTrip(n / 10);
    }
  }

  /** A canonical digit string is the rendering of its own value. */
  lemma {:induction false} CanonicalDecimalRoundTrip(s: string)
    requires IsCanonicalDecimal(s)
    ensures NatToDecimal(DecimalValue(s)) == s
  {
    if |s| == 1 {
      assert DecimalValue(s) == DigitValue(s[0]) by {
        assert s[..0] == [];
      }
    } else {
      var p := s[..|s| - 1];
      assert p[0] == s[0];
      CanonicalDecimalRoundTrip(p);
      LeadingDigitPositive(p);
    }
  }

  /** A canonical digit string of two or more digits is worth at least 10. */
  lemma {:induction false} LeadingDigitPositive(s: string)
    requires IsCanonicalDecimal(s)
    ensures |s| >= 2 ==> DecimalValue(s) >= 10
    ensures DecimalValue(s) >= 1 || s == "0"
  {
    if |s| >= 2 {
      var p := s[..|s| - 1];
      assert p[0] == s[0];
      LeadingDigitPositive(p);
    } else {
      assert s[..0] == [];
    }
  }

  /** Two digit strings of one length and one value are equal. */
  lemma {:induction false} DigitsDetermined(a: string, b: string)
    requires AllDigits(a) && AllDigits(b) && |a| == |b|
    requires DecimalValue(a) == DecimalValue(b)
    ensures a == b
  {
    if a != [] {
      var n := |a|;
      var a', b' := a[..n - 1], b[..n - 1];
      var x, y := DecimalValue(a'), DecimalValue(b');
      var d, e := DigitValue(a[n - 1]), DigitValue(b[n - 1]);
      assert DecimalValue(a) == x * 10 + d;
      assert DecimalValue(b) == y * 10 + e;
      LastDigitDetermined(x, d, y, e);
      DigitsDetermined(a', b');
      assert a[n - 1] == b[n - 1] by {
        DigitValueInjective(a[n - 1], b[n - 1]);
      }
      assert a == a' + [a[n - 1]];
      assert b == b' + [b[n - 1]];
    }
  }

  lemma DigitValueInjective(c: char, c': char)
    requires IsDigit(c) && IsDigit(c') && DigitValue(c) == DigitValue(c')
    ensures c == c'
  {
  }

  lemma LastDigitDetermined(x: nat, d: nat, y: nat, e: nat)
    requires d < 10 && e < 10 && x * 10 + d == y * 10 + e
    ensures x == y && d == e
  {
  }
}

=== FILE: types.dfy ===
/**
 The shared data model: the application states, the structured report
 returned by the generation service and its sections.
 */
module Types {

  /** A value that may be absent (the source's `null` / optional fields). */
  datatype Option<+T> = None | Some(value: T)

  /** The controller's mode. `Transcribing` is declared by the source but
      no handler ever enters it. */
  datatype AppState = Idle | Recording | Transcribing | Ready | Generating | Error

  /** One section of a report; `items` is an optional list. */
  datatype ReportSection = ReportSection(title: string, content: string, items: Option<seq<string>>)

  datatype StructuredReport = StructuredReport(title: string, date: string, sections: seq<ReportSection>)

  /** The list items of a section, an absent list read as empty. */
  function ItemsOf(s: ReportSection): seq<string> {
    if s.items.Some? then s.items.value else []
  }

  /** The section carries a list with at least one item. */
  predicate HasItems(s: ReportSection) {
    s.items.Some? && |s.items.value| > 0
  }
}
